=== FILE: README.md ===
# Life Manager core, modelled in Dafny

This project models the core of Life Manager. Life Manager is a desktop organiser with
tasks, habits with reminders, a PDF library with notes, and a calendar. The model covers
these parts:

- the data records and the SQLite schema rules they live under. Ids are
  AUTOINCREMENT and never reused. Usernames are unique. Foreign keys are enforced,
  because every connection runs `PRAGMA foreign_keys = ON`;
- the task factory (simple and urgent tasks) and the task repository;
- the task, habit, authentication and library services;
- the subject/observer pair that delivers habit reminders;
- the pure rules of the user interface: login form validation, the calendar's month
  navigation and day cells, the task list's toggling, priority and adding rules, and
  the main window's routing.

The model is functional. The database is a value `Models.Db` made of five tables. Each
table (`Store.Table`) maps ids to rows and keeps the next id to hand out. Every service
call takes the database and returns the new one, plus its result when it has one. The
parts of the system outside the model become parameters:

- `healthy` says whether the connection and the driver call succeed. When it is false,
  the call returns its failure value (`None`, `[]` or `false`) and changes nothing.
- `now` is the clock reading.
- `weekday` is the day of the week of a calendar day, as `date.weekday()` gives it.
- `disk` maps file paths to what the PDF reader finds at them.

Created rows store `created_at` cut to whole seconds (`Clock.Truncate`). For tasks,
habits, books and notes the application formats `datetime.now()` as
`"%Y-%m-%d %H:%M:%S"`. `TaskRepository.Create` returns the task object it was given, so
that one result keeps the untruncated time. Habits, books and notes are rebuilt from the
formatted text and come back truncated. A user's `created_at` is not written by the
application at all: `register` inserts only the name and the password digest, and the
column's `DEFAULT CURRENT_TIMESTAMP` fills it in. That is SQLite's UTC clock, also in
whole seconds, and `login` parses it back. So the `now` parameter of
`AuthService.Register` stands for SQLite's `CURRENT_TIMESTAMP`, not for the local
clock.
`Clock.Ordinal` turns a timestamp into a single integer that orders timestamps the way
Python compares datetimes. The task sort uses it.

Modules follow the program: `TaskFactory`, `TaskRepository`, `TaskService`,
`HabitService`, `Observer`, `AuthService`, `LibraryService` for the services and
patterns. `AuthForm`, `CalendarRules`, `TasksView` and `MainWindow` hold the UI rules.
`Models` and `Store` model the schema. `Clock`, `Text`, `Seqs`, `Sorting` and
`Wrappers` are shared helpers.

## Model

| member | source | states |
|---|---|---|
| Models.EmptyDb | src/db/database.py:84-150 | a freshly initialised database has five empty tables and satisfies every schema invariant: unique usernames, keyed rows, no dangling foreign key |
| TaskFactory.GetTaskCreator | src/patterns/task_factory.py:57-79 | "simple" gives the simple creator, "urgent" the urgent one, and every other tag fails with "Неизвестный тип задачи: " followed by the tag |
| TaskFactory.CreateTask | src/patterns/task_factory.py:25-55 | a created task has no id and status "new". A missing or empty description becomes ""; any other description is kept. A simple task has priority 1 and no colour; an urgent task has priority 3 and colour #ff0000 |
| TaskRepository.Create | src/patterns/repository.py:45-66 | an insert succeeds exactly when the connection works and the owner exists. On success the task gets the next unused id, the stored row is the task with that id and its time cut to seconds, and nothing else changes. On failure nothing changes |
| TaskRepository.GetById | src/patterns/repository.py:68-93 | a task is found exactly when its id is stored, and the stored row comes back with that id |
| TaskRepository.GetAllExact | src/patterns/repository.py:95-120 | listing a user's tasks returns exactly the stored tasks of that user |
| TaskRepository.GetAllInIdOrder | src/patterns/repository.py:95-120 | the listing is in increasing id order, the order the table yields rows in |
| TaskRepository.Update | src/patterns/repository.py:122-141 | an update reports success exactly when the connection works. It overwrites the editable columns of the row with the task's id and leaves every other row and table as it was; an unknown id changes nothing |
| TaskRepository.Delete | src/patterns/repository.py:143-155 | a delete reports success whenever the connection works, even when no row matched. It removes exactly that id and leaves every other row unchanged |
| TaskRepository.CreateThenGet | src/patterns/repository.py:45-93 | reading back a freshly created task by its new id returns the stored row |
| TaskRepository.DeleteThenGet | src/patterns/repository.py:68-155 | after a delete the id is no longer found |
| TaskRepository.DeletedIdNotReused | src/patterns/repository.py:45-66 | a task created after a delete never gets the deleted id, because the id counter only grows |
| TaskService.CreateTask | src/services/task_service.py:15-22 | an unknown task type fails with the factory's message and changes nothing. A known type inserts the factory's task (status "new"; urgent: priority 3, colour #ff0000; simple: priority 1, no colour; a missing description becomes "") under the next id when the connection works and the user exists, and the id counter advances by one |
| TaskService.FilterByStatus | src/services/task_service.py:40-42 | a status filter keeps exactly the tasks with that status; a missing or empty status keeps all. Id order is kept |
| TaskService.FilterByTitle | src/services/task_service.py:44-47 | a search keeps exactly the tasks whose lower-cased title contains the lower-cased query; a missing or empty query keeps all. Id order is kept |
| TaskService.SearchIgnoresCase | src/services/task_service.py:45-47 | a query and its lower-cased form select the same tasks |
| TaskService.SearchIsSubstringTest | src/services/task_service.py:45-47 | the search is exactly the lower-case substring test, including for the empty query that the `if search_query:` guard skips |
| TaskService.SortTasks | src/services/task_service.py:49-54 | the result is a permutation of the input. It is sorted by priority or by creation time, descending exactly when the order is "desc". Any other sort field leaves the list as it was |
| TaskService.ResortingChangesNothing | src/services/task_service.py:49-54 | sorting an already sorted listing again with the same field and order returns it unchanged |
| TaskService.GetUserTasks | src/services/task_service.py:24-56 | every listed task is a stored task of the user that passes both filters. Nothing is listed when the connection fails |
| TaskService.GetUserTasksComplete | src/services/task_service.py:24-56 | every stored task of the user that passes both filters is listed |
| TaskService.GetUserTasksOrder | src/services/task_service.py:24-56 | the listing is the filtered id-ordered list, sorted by the chosen key and direction. The sort is stable, so tasks with equal keys keep their id order |
| TaskService.UpdateTaskStatus | src/services/task_service.py:58-65 | only the status of that one task changes; an unknown id changes nothing |
| TaskService.UpdateTaskPriority | src/services/task_service.py:67-74 | only the priority of that one task changes; an unknown id changes nothing |
| TaskService.UpdateTaskColor | src/services/task_service.py:76-83 | only the colour of that one task changes; an unknown id changes nothing |
| TaskService.UpdateTaskDescription | src/services/task_service.py:85-92 | only the description of that one task changes; an unknown id changes nothing |
| TaskService.DeleteTask | src/services/task_service.py:94-98 | the task's id disappears, every other task keeps its values, the id counter stays, and only the task table changes |
| TaskService.GetTaskStatistics | src/services/task_service.py:100-122 | the counts are the number of the user's tasks, of completed ones and of in-progress ones. A user without tasks gets all zeros. Otherwise the rate is the completed share as a percentage |
| TaskService.CompletionRate | src/services/task_service.py:115-122 | the rate times the total is 100 times the completed count |
| HabitService.CreateHabit | src/services/habit_service.py:15-52 | a habit is inserted exactly when the connection works and the user exists. It gets the next unused id and the given fields, and is stored with its time cut to seconds |
| HabitService.GetUserHabits | src/services/habit_service.py:54-81 | the list is exactly the user's stored habits, in increasing id order |
| HabitService.UpdateHabit | src/services/habit_service.py:83-109 | only name, frequency and reminder time of the row with that id change, and success is reported whenever the connection works |
| HabitService.DeleteHabit | src/services/habit_service.py:111-133 | the id is removed, every other habit is kept, and success is reported whenever the connection works |
| HabitService.DueHabits | src/services/habit_service.py:140-150 | the habits due now are exactly the stored habits, of any user, whose reminder time equals the current "HH:MM" |
| HabitService.Reminders | src/services/habit_service.py:152-154 | there is one reminder message per due habit, naming the habit, in order |
| HabitService.CheckReminders | src/services/habit_service.py:135-157 | every due habit's reminder is appended to the history, once per due habit. The deliveries go reminder by reminder in storage order, each reminder to every subscriber in attachment order before the next. The subscribers stay the same |
| HabitService.CheckRemindersDelivery | src/services/habit_service.py:135-157 | each attached subscriber receives every due reminder exactly once, in order; others receive nothing |
| Observer.NewHub | src/patterns/observer.py:33-39 | a new notification manager has no subscribers and no history |
| Observer.Attach | src/patterns/observer.py:19-22 | attaching appends a subscriber that is not yet present and otherwise changes nothing, so the list stays free of duplicates |
| Observer.Detach | src/patterns/observer.py:24-26 | detaching a subscriber that is not attached is an error. Otherwise the first occurrence is removed and the others keep their order; in a list without duplicates exactly that subscriber goes |
| Observer.Notify | src/patterns/observer.py:28-31 | notifying calls every subscriber once with the message, in attachment order |
| Observer.NotifyExactlyOnce | src/patterns/observer.py:28-31 | in a list without duplicates, an attached subscriber receives the message exactly once and any other subscriber none |
| Observer.AddNotification | src/patterns/observer.py:41-44 | the message is appended to the history and then broadcast |
| Observer.PublishReachesEverySubscriber | src/patterns/observer.py:28-44 | a run of notifications reaches each attached subscriber once per message, in order |
| Observer.PublishInOrder | src/patterns/observer.py:28-44 | a run of notifications is delivered message by message: block `i` of the deliveries is message `i` sent to every subscriber in attachment order |
| AuthService.Construct | src/services/auth_service.py:14-19 | the first construction creates a session with nobody logged in; later constructions return the same session |
| AuthService.ConstructIsSingleton | src/services/auth_service.py:14-19 | constructing twice yields the same instance and the same process state |
| AuthService.Register | src/services/auth_service.py:31-64 | registration succeeds exactly when name and password are non-empty, the connection works and the name is free. It then stores the name and the password's digest under the next unused id; on failure nothing changes |
| AuthService.RegisterTwice | src/services/auth_service.py:31-64 | registering the same name twice fails the second time and changes nothing |
| AuthService.Login | src/services/auth_service.py:66-99 | login succeeds exactly when a stored user has that name and that password's digest. The session then holds that stored user; on failure the session is unchanged |
| AuthService.RegisterThenLogin | src/services/auth_service.py:31-99 | a user who has just registered can log in with the same password |
| AuthService.WrongPasswordFails | src/services/auth_service.py:66-99 | with a stored user of that name and password, logging in with a different password fails and leaves the session unchanged |
| AuthService.Logout | src/services/auth_service.py:101-107 | after logout nobody is authenticated |
| AuthService.LogoutIdempotent | src/services/auth_service.py:100-106 | logging out twice leaves the same session as logging out once |
| AuthService.LoginAuthenticates | src/services/auth_service.py:115-119 | after a login attempt a user is authenticated exactly when the login succeeded or someone was already logged in |
| LibraryService.AddBook | src/services/library_service.py:15-58 | a book is added exactly when the file is a readable PDF, the connection works and the user exists. It starts at page 0 with the next unused id |
| LibraryService.AddedBookPages | src/services/library_service.py:15-58 | a book just added shows its PDF's page texts for in-range page numbers and "" outside them |
| LibraryService.GetUserBooks | src/services/library_service.py:60-87 | the list is exactly the user's stored books, in increasing id order |
| LibraryService.UpdateCurrentPage | src/services/library_service.py:89-109 | only the current page of that book changes, and success is reported whenever the connection works |
| LibraryService.AddNote | src/services/library_service.py:111-141 | a note is added exactly when the connection works and the book exists |
| LibraryService.GetBookNotes | src/services/library_service.py:143-168 | the list is exactly the stored notes of the book, in increasing id order |
| LibraryService.GetBookById | src/services/library_service.py:188-214 | a book is found exactly when its id is stored |
| LibraryService.GetPageContent | src/services/library_service.py:170-186 | the text is the page's text when the book exists, its file is a readable PDF and the page number is in range; otherwise it is "" |
| AuthForm.ValidateInput | src/ui/auth_frame.py:126-140 | after stripping whitespace, the checks run in order: an empty name, an empty password, a name shorter than 3, a password shorter than 6, each with its message. Input passing all four is accepted with "" |
| AuthForm.ValidationSeesStrippedFields | src/ui/auth_frame.py:128-140 | the verdict on the raw fields equals the verdict on their stripped text |
| AuthForm.ValidationIgnoresPadding | src/ui/auth_frame.py:128-129 | whitespace added before or after either field, in any amount, never changes the verdict |
| CalendarRules.NextMonth | src/ui/calendar_frame.py:196-209 | the first day of the next month (January of the next year after December), valid, except after December 9999, where the date library raises |
| CalendarRules.PreviousMonth | src/ui/calendar_frame.py:189-194 | the previous month's first day, valid, except before January of year 1, where the date library raises |
| CalendarRules.NextThenPrevious | src/ui/calendar_frame.py:189-209 | going forward then back returns to the first of the starting month |
| CalendarRules.PreviousThenNext | src/ui/calendar_frame.py:189-209 | going back then forward returns to the first of the starting month |
| CalendarRules.TasksOn | src/ui/calendar_frame.py:167-175 | a day lists exactly the tasks created that day that are not completed |
| CalendarRules.HabitsOn | src/ui/calendar_frame.py:178-184 | a day lists exactly the habits whose frequency makes them due that day |
| CalendarRules.TasksOnKeepOrder | src/ui/calendar_frame.py:167-175 | a day's tasks appear in the order of the listing they were picked from |
| CalendarRules.HabitsOnKeepOrder | src/ui/calendar_frame.py:178-184 | a day's habits appear in the order of the listing they were picked from |
| CalendarRules.HabitFrequencyRule | src/ui/calendar_frame.py:178-184 | daily habits show every day, weekly ones on Mondays, monthly ones on the first, others never |
| CalendarRules.CellShowsTask | src/ui/calendar_frame.py:134-187 | a stored unfinished task of the logged-in user appears in the cell of its creation day |
| CalendarRules.CellShowsHabit | src/ui/calendar_frame.py:134-187 | a stored habit of the logged-in user that is due on a day appears in that day's cell |
| CalendarRules.CellText | src/ui/calendar_frame.py:134-141 | without a logged-in user every cell is empty |
| TasksView.Shown | src/ui/tasks_frame.py:260-289 | the list shows only stored tasks of the logged-in user that pass the view's filters, and nothing when nobody is logged in |
| TasksView.InitialViewShowsAll | src/ui/tasks_frame.py:17-19 | with an empty search, a fresh view shows exactly the user's tasks, highest priority first |
| TasksView.ToggledStatus | src/ui/tasks_frame.py:291-295 | toggling gives "completed" exactly for tasks that were not completed, and "new" otherwise |
| TasksView.ToggleTwice | src/ui/tasks_frame.py:291-295 | toggling twice gives back "completed" for a completed task and "new" for any other status |
| TasksView.ToggleTaskStatus | src/ui/tasks_frame.py:291-295 | only the displayed task's status changes, to the toggled value; a task without id or no longer stored changes nothing |
| TasksView.ChangePriority | src/ui/tasks_frame.py:297-302 | a priority change outside 0..3 is ignored, and so is one for a task without id or no longer stored. Otherwise only that task's priority changes, so priorities within 0..3 stay within 0..3 |
| TasksView.AddTask | src/ui/tasks_frame.py:151-172 | an empty title, no user, an unknown type, a failing connection or an unknown user changes nothing. Otherwise exactly one task is added under the next id, with the typed title and description, status "new", the type's priority and colour ("#ff0000" for urgent, none for simple). The id counter moves past the new id, and every existing task keeps its values |
| MainWindow.Target | src/ui/main_window.py:207-216 | anonymous requests go to "auth", a logged-in request for "auth" goes to "tasks", and other logged-in requests keep their name |
| MainWindow.UpdateNavigationState | src/ui/main_window.py:192-195 | the logout button is enabled exactly while someone is logged in |
| MainWindow.ShowFrame | src/ui/main_window.py:173-228 | a known target is shown and the navigation refreshed. An unknown one leaves every frame hidden and the navigation untouched |
| MainWindow.AuthShownIffAnonymous | src/ui/main_window.py:203-228 | the login frame is shown after a request exactly when nobody is logged in |
| MainWindow.KnownFrameShown | src/ui/main_window.py:203-228 | for a logged-in user, a request for a known frame other than "auth" shows that frame and enables logout |
| MainWindow.ShowInitialFrame | src/ui/main_window.py:185-190 | the first frame is tasks for a logged-in user and the login frame otherwise |
| MainWindow.HandleLogout | src/ui/main_window.py:197-201 | after logout the login frame is shown and the logout button is disabled |
| Text.Strip | src/ui/auth_frame.py:128-129 | stripping removes leading and trailing whitespace only, leaving no whitespace at either end |
| Text.ContainsIsOccurrence | src/services/task_service.py:44-47 | the substring test used by the search holds exactly when the query occurs at some offset |
| Sorting.SortIsStable | src/services/task_service.py:49-54 | the sort keeps tasks with equal keys in their original order, as Python's sort does |
| Clock.OrdinalMatchesComparison | src/services/task_service.py:53-54 | comparing timestamps by their ordinal agrees with Python's datetime comparison |

## Left out

- SQL text, cursors, commits, rollbacks and connection lifecycle (database.py). Each
  call's success is the `healthy` parameter. A failure at any step leaves the database
  unchanged, matching the rollback.
- The row order of a SELECT without ORDER BY is taken as ascending id. This is
  SQLite's rowid order for these tables.
- The sha256 hex digest is a constructor `Sha256(password)`. The model therefore treats
  digests as collision-free.
- `str.lower` maps only A–Z and the Cyrillic capitals U+0400–U+042F. Other upper-case
  letters stay unchanged, including Cyrillic ones outside that block such as Ґ (U+0490),
  which Python does lower.
- `TaskService.GetTaskStatistics`: the completion rate is an exact real number, not a
  binary float. The contract states the ratio, not the float rounding.
- PDF parsing (PyPDF2) is a map from path to a list of page texts. A file that fails to
  parse is `Unreadable`.
- `CalendarRules.PreviousMonth`: in January of year 1 the frame has already moved its
  date to day 1 before stepping back raises. The model returns `None` and does not
  record that change to the day, which the month grid does not show.
- Stored `created_at` values are not required to be valid calendar timestamps. The
  order agreement `Clock.OrdinalMatchesComparison` holds for valid ones, which are all
  that `datetime.now()` produces.
- `weekday()` is a parameter of the calendar rules; the Gregorian weekday computation is
  not modelled.
- `CalendarRules.CellText`: only the events text of a cell is modelled. Cell colours,
  today's highlight and the month label are widget state.
- Observer `update` implementations and exceptions they raise are not modelled. A
  delivery is recorded as a (subscriber, message) pair.
- `HabitService.CheckReminders`: exceptions raised inside the loop are not modelled.
  The healthy path delivers every due reminder; an unhealthy one delivers none.
- The AI service, configuration, themes, widgets, the habit and library frames, and
  `main.py` start-up are not part of this model.
- Widget state (frames packed, entries cleared) is reduced to the
  frame shown and the logout button's state.

Behaviour of the code a reader may not expect:

- Deleting a task or habit id that does not exist reports success. The delete
  statement does not check the row count.
- Inserts whose owner id does not exist fail. Foreign keys are switched on at every
  connect, so the insert raises an integrity error and the service returns its failure
  value.
- `check_reminders` selects habits of every user whose reminder time matches, not only
  the logged-in user's habits.
- Tasks with status "completed" are hidden from calendar cells. Task dates come from
  `created_at`, because tasks have no due date.

=== FILE: auth_form.dfy ===
/** The credential check of the login/registration form (`AuthFrame._validate_input`). */
module AuthForm {

  import opened Text

  const EmptyUsernameMessage := "Введите имя пользователя"
  const EmptyPasswordMessage := "Введите пароль"
  const ShortUsernameMessage := "Имя пользователя должно быть не менее 3 символов"
  const ShortPasswordMessage := "Пароль должен быть не менее 6 символов"

  /** Both fields are stripped of surrounding whitespace, then checked in order: empty
      name, empty password, name under 3 characters, password under 6 characters. The
      first failing check gives the message; input passing all gives `(true, "")`. */
  function ValidateInput(usernameField: string, passwordField: string): (r: (bool, string))
    ensures var u := Strip(usernameField);
            var p := Strip(passwordField);
            && (r.0 <==> |u| >= 3 && |p| >= 6)
            && (r.0 ==> r.1 == "")
            && (u == "" ==> r == (false, EmptyUsernameMessage))
            && (u != "" && p == "" ==> r == (false, EmptyPasswordMessage))
            && (u != "" && p != "" && |u| < 3 ==> r == (false, ShortUsernameMessage))
            && (|u| >= 3 && p != "" && |p| < 6 ==> r == (false, ShortPasswordMessage))
  {
    var username := Strip(usernameField);
    var password := Strip(passwordField);
    if username == "" then (false, EmptyUsernameMessage)
    else if password == "" then (false, EmptyPasswordMessage)
    else if |username| < 3 then (false, ShortUsernameMessage)
    else if |password| < 6 then (false, ShortPasswordMessage)
    else (true, "")
  }

  /** Only the stripped text of each field counts. */
  lemma ValidationSeesStrippedFields(usernameField: string, passwordField: string)
    ensures ValidateInput(usernameField, passwordField) == ValidateInput(Strip(usernameField), Strip(passwordField))
  {
    StripIdempotent(usernameField);
    StripIdempotent(passwordField);
  }

  /** Whitespace added around either field, on either side and in any amount, never
      changes the verdict. */
  lemma ValidationIgnoresPadding(usernameField: string, passwordField: string,
                                 userBefore: string, userAfter: string, passBefore: string, passAfter: string)
    requires AllSpace(userBefore) && AllSpace(userAfter) && AllSpace(passBefore) && AllSpace(passAfter)
    ensures ValidateInput(userBefore + usernameField + userAfter, passBefore + passwordField + passAfter)
            == ValidateInput(usernameField, passwordField)
  {
    StripPadding(usernameField, userBefore, userAfter);
    StripPadding(passwordField, passBefore, passAfter);
  }

  predicate AllSpace(pad: string) {
    forall i :: 0 <= i < |pad| ==> IsSpace(pad[i])
  }

  lemma StripPadding(s: string, before: string, after: string)
    requires AllSpace(before) && AllSpace(after)
    ensures Strip(before + s + after) == Strip(s)
  {
    var padded := before + (s + after);
    assert before + s + after == padded;
    StripIsTrims(padded);
    StripIsTrims(s);
    assert TrimStart(padded) == TrimStart(s + after) by {
      PadStartTrimmed(s + after, before);
    }
    TrimStartOfSuffixPadded(s, after);
  }

  /** `Strip` is trimming the start, then the end. */
  lemma StripIsTrims(s: string)
    ensures Strip(s) == TrimEnd(TrimStart(s))
  {
  }

  lemma {:induction false} PadStartTrimmed(s: string, pad: string)
    requires AllSpace(pad)
    ensures TrimStart(pad + s) == TrimStart(s)
  {
    if pad == [] {
      assert pad + s == s;
    } else {
      assert (pad + s)[1..] == pad[1..] + s;
      PadStartTrimmed(s, pad[1..]);
    }
  }

  lemma {:induction false} PadEndTrimmed(s: string, pad: string)
    requires AllSpace(pad)
    ensures TrimEnd(s + pad) == TrimEnd(s)
  {
    if pad == [] {
      assert s + pad == s;
    } else {
      var shorter := pad[..|pad| - 1];
      assert (s + pad)[..|s + pad| - 1] == s + shorter;
      PadEndTrimmed(s, shorter);
    }
  }

  lemma {:induction false} TrimStartOfSuffixPadded(s: string, pad: string)
    requires AllSpace(pad)
    ensures TrimEnd(TrimStart(s + pad)) == TrimEnd(TrimStart(s))
  {
    if s != [] && IsSpace(s[0]) {
      assert (s + pad)[1..] == s[1..] + pad;
      TrimStartOfSuffixPadded(s[1..], pad);
    } else if s == [] {
      PadStartTrimmed([], pad);
      assert pad + [] == pad && [] + pad == pad;
    } else {
      assert TrimStart(s + pad) == s + pad;
      PadEndTrimmed(s, pad);
    }
  }
}

=== FILE: auth_service.dfy ===
/** `AuthService`: the process-wide session over the `users` table. The session is
    empty or holds the logged-in user; registration never touches it. */
module AuthService {

  import opened Wrappers
  import opened Clock
  import opened Models
  import Store

  /** The singleton's state: `current_user`. */
  datatype Session = Session(currentUser: Option<User>)

  /** The class attribute `AuthService._instance`. */
  datatype Process = Process(instance: Option<Session>)

  /** `AuthService()`: the first construction creates the instance with an empty
      session; every later one returns that same instance. */
  function Construct(p: Process): (r: (Process, Session))
    ensures r.0.instance == Some(r.1)
    ensures p.instance.Some? ==> r.0 == p && r.1 == p.instance.value
    ensures p.instance.None? ==> r.1.currentUser == None
  {
    match p.instance
    case Some(s) => (p, s)
    case None => (Process(Some(Session(None))), Session(None))
  }

  /** Constructing again yields the instance already made. */
  lemma ConstructIsSingleton(p: Process)
    ensures Construct(Construct(p).0).1 == Construct(p).1
    ensures Construct(Construct(p).0).0 == Construct(p).0
  {
  }

  /** `_hash_password`. */
  function HashPassword(password: string): Digest {
    Sha256(password)
  }

  /** Some stored user already has this name (the `UNIQUE` constraint). */
  predicate NameTaken(db: Db, username: string) {
    exists k :: k in db.users.rows && db.users.rows[k].username == username
  }

  /** `register`: rejects an empty name or password, stores the password's digest under
      a fresh id, and fails without writing when the name is taken. `now` is the database's
      own UTC clock: the row's `created_at` comes from the column default
      `CURRENT_TIMESTAMP`, not from the application. */
  function Register(db: Db, username: string, password: string, now: DateTime, healthy: bool): (r: Step<bool>)
    requires Valid(db)
    ensures Valid(r.db)
    ensures r.result <==> username != "" && password != "" && healthy && !NameTaken(db, username)
    ensures !r.result ==> r.db == db
    ensures r.result ==>
              var id := db.users.nextId;
              && id !in db.users.rows
              && r.db.users.rows == db.users.rows[id := User(Some(id), username, HashPassword(password), Truncate(now))]
              && r.db.users.nextId == id + 1
              && r.db == db.(users := r.db.users)
  {
    if username == "" || password == "" then Step(db, false)
    else if !healthy || NameTaken(db, username) then Step(db, false)
    else
      var user := User(Some(db.users.nextId), username, HashPassword(password), Truncate(now));
      Step(db.(users := Store.Insert(db.users, user)), true)
  }

  /** A second registration under the same name fails and leaves the table as it was. */
  lemma RegisterTwice(db: Db, username: string, p1: string, p2: string, now1: DateTime, now2: DateTime)
    requires Valid(db) && username != "" && p1 != "" && !NameTaken(db, username)
    ensures var first := Register(db, username, p1, now1, true);
            && first.result
            && Register(first.db, username, p2, now2, true) == Step(first.db, false)
  {
    var first := Register(db, username, p1, now1, true);
    assert first.db.users.rows[db.users.nextId].username == username;
  }

  predicate Matches(username: string, digest: Digest, u: User) {
    u.username == username && u.passwordHash == digest
  }

  /** `SELECT * FROM users WHERE username = ? AND password_hash = ?` and `fetchone()`. */
  function FindUser(db: Db, username: string, digest: Digest): (r: Option<User>)
    requires Valid(db)
    ensures r.Some? <==> exists k :: k in db.users.rows && Matches(username, digest, db.users.rows[k])
    ensures r.Some? ==> r.value in db.users.rows.Values && Matches(username, digest, r.value)
  {
    var p := (u: User) => Matches(username, digest, u);
    var found := Store.Select(db.users, p);
    if found == [] then
      assert forall k :: k in db.users.rows ==> !p(db.users.rows[k]) by {
        forall k | k in db.users.rows ensures !p(db.users.rows[k]) {
          Store.SelectMember(db.users, p, db.users.rows[k]);
        }
      }
      None
    else
      Store.SelectMember(db.users, p, found[0]);
      Some(found[0])
  }

  /** `login`: succeeds exactly when a stored user has this name and this password's
      digest, and then holds that user in the session; a failed login changes nothing. */
  function Login(db: Db, s: Session, username: string, password: string, healthy: bool): (r: (Session, bool))
    requires Valid(db)
    ensures r.1 <==> healthy && exists k :: k in db.users.rows && Matches(username, HashPassword(password), db.users.rows[k])
    ensures r.1 ==> r.0.currentUser.Some? && r.0.currentUser.value in db.users.rows.Values
                    && r.0.currentUser.value.username == username
                    && r.0.currentUser.value.passwordHash == HashPassword(password)
    ensures !r.1 ==> r.0 == s
  {
    if !healthy then (s, false)
    else match FindUser(db, username, HashPassword(password))
      case None => (s, false)
      case Some(u) => (Session(Some(u)), true)
  }

  /** `logout`: the session is empty afterwards. */
  function Logout(s: Session): (s': Session)
    ensures !IsAuthenticated(s')
  {
    Session(None)
  }

  /** Logging out twice is logging out once. */
  lemma LogoutIdempotent(s: Session)
    ensures Logout(Logout(s)) == Logout(s)
  {
  }

  /** `is_authenticated`. */
  predicate IsAuthenticated(s: Session) {
    s.currentUser.Some?
  }

  /** After `login`, `is_authenticated` holds exactly when the login succeeded or a user
      was already logged in: a failed login never logs anybody out. */
  lemma LoginAuthenticates(db: Db, s: Session, username: string, password: string, healthy: bool)
    requires Valid(db)
    ensures var r := Login(db, s, username, password, healthy);
            IsAuthenticated(r.0) <==> r.1 || IsAuthenticated(s)
  {
  }

  /** After registering, logging in with the same name and password succeeds as the new user. */
  lemma RegisterThenLogin(db: Db, s: Session, username: string, password: string, now: DateTime)
    requires Valid(db) && username != "" && password != "" && !NameTaken(db, username)
    ensures var reg := Register(db, username, password, now, true);
            var login := Login(reg.db, s, username, password, true);
            && login.1 && IsAuthenticated(login.0)
            && login.0.currentUser.value.id == Some(db.users.nextId)
  {
    var reg := Register(db, username, password, now, true);
    var id := db.users.nextId;
    assert Matches(username, HashPassword(password), reg.db.users.rows[id]);
    var u := Login(reg.db, s, username, password, true).0.currentUser.value;
    var k :| k in reg.db.users.rows && reg.db.users.rows[k] == u;
    assert k == id;
  }

  /** Once a name is registered, a different password never logs in under it. */
  lemma WrongPasswordFails(db: Db, s: Session, username: string, password: string, other: string)
    requires Valid(db)
    requires exists k :: k in db.users.rows && Matches(username, HashPassword(password), db.users.rows[k])
    requires other != password
    ensures Login(db, s, username, other, true) == (s, false)
  {
  }
}

=== FILE: calendar_rules.dfy ===
/** The rules of the calendar view (`CalendarFrame`): month navigation and which tasks
    and habits a day cell lists. */
module CalendarRules {

  import opened Wrappers
  import opened Clock
  import opened Models
  import Seqs
  import TaskService
  import HabitService
  import AuthService
  import Text

  /** `next_month`: the first day of the following month. `None` where `replace`
      raises because the year would pass 9999. */
  function NextMonth(d: Date): (r: Option<Date>)
    requires ValidDate(d)
    ensures r.Some? <==> !(d.year == MaxYear && d.month == 12)
    ensures r.Some? ==> ValidDate(r.value) && r.value.day == 1
    ensures r.Some? && d.month == 12 ==> r.value == Date(d.year + 1, 1, 1)
    ensures r.Some? && d.month < 12 ==> r.value == Date(d.year, d.month + 1, 1)
  {
    if d.month == 12 then
      if d.year + 1 > MaxYear then None else Some(Date(d.year + 1, 1, 1))
    else Some(d.(month := d.month + 1, day := 1))
  }

  /** `previous_month`: go to day 1, step back one day, go to day 1 again. `None`
      where the step back raises, before 1 January of year 1. */
  function PreviousMonth(d: Date): (r: Option<Date>)
    requires ValidDate(d)
    ensures r.Some? <==> !(d.year == MinYear && d.month == 1)
    ensures r.Some? ==> ValidDate(r.value) && r.value.day == 1
    ensures r.Some? && d.month == 1 ==> r.value == Date(d.year - 1, 12, 1)
    ensures r.Some? && d.month > 1 ==> r.value == Date(d.year, d.month - 1, 1)
  {
    match PreviousDay(d.(day := 1))
    case None => None
    case Some(p) => Some(p.(day := 1))
  }

  /** Forward then back lands on the first of the starting month. */
  lemma NextThenPrevious(d: Date)
    requires ValidDate(d) && NextMonth(d).Some?
    ensures PreviousMonth(NextMonth(d).value) == Some(d.(day := 1))
  {
    var n := NextMonth(d).value;
    if d.month == 12 {
      assert n == Date(d.year + 1, 1, 1);
    } else {
      assert n == Date(d.year, d.month + 1, 1);
    }
  }

  /** Back then forward lands on the first of the starting month. */
  lemma PreviousThenNext(d: Date)
    requires ValidDate(d) && PreviousMonth(d).Some?
    ensures NextMonth(PreviousMonth(d).value) == Some(d.(day := 1))
  {
    var p := PreviousMonth(d).value;
    if d.month == 1 {
      assert p == Date(d.year - 1, 12, 1);
    } else {
      assert p == Date(d.year, d.month - 1, 1);
    }
  }

  /** A task is listed on the day it was created unless it is completed. */
  predicate TaskShownOn(day: Date, t: Task) {
    t.createdAt.date == day && t.status != "completed"
  }

  /** Daily habits show every day, weekly ones on Mondays (`weekday() == 0`), monthly
      ones on the first; any other frequency never. */
  predicate HabitShownOn(day: Date, weekday: int, h: Habit) {
    || h.frequency == "daily"
    || (h.frequency == "weekly" && weekday == 0)
    || (h.frequency == "monthly" && day.day == 1)
  }

  /** `TaskShownOn` for a fixed day, as a filter condition. */
  function ShownTasks(day: Date): Task -> bool {
    t => TaskShownOn(day, t)
  }

  /** `HabitShownOn` for a fixed day, as a filter condition. */
  function ShownHabits(day: Date, weekday: int): Habit -> bool {
    h => HabitShownOn(day, weekday, h)
  }

  /** The tasks of a list that a day cell shows. */
  function TasksOn(tasks: seq<Task>, day: Date): (r: seq<Task>)
    ensures forall x :: x in r <==> x in tasks && x.createdAt.date == day && x.status != "completed"
  {
    var p := ShownTasks(day);
    assert forall x :: x in Seqs.Filter(tasks, p) <==> x in tasks && p(x) by {
      forall x { Seqs.FilterMember(tasks, p, x); }
    }
    Seqs.Filter(tasks, p)
  }

  /** The habits of a list that a day cell shows. */
  function HabitsOn(habits: seq<Habit>, day: Date, weekday: int): (r: seq<Habit>)
    ensures forall x :: x in r <==> x in habits && HabitShownOn(day, weekday, x)
  {
    var p := ShownHabits(day, weekday);
    assert forall x :: x in Seqs.Filter(habits, p) <==> x in habits && p(x) by {
      forall x { Seqs.FilterMember(habits, p, x); }
    }
    Seqs.Filter(habits, p)
  }

  /** A day's tasks keep the order of the list they were picked from. */
  lemma TasksOnKeepOrder(tasks: seq<Task>, day: Date)
    ensures exists m :: Seqs.Embeds(TasksOn(tasks, day), tasks, m)
  {
    assert TasksOn(tasks, day) == Seqs.Filter(tasks, ShownTasks(day));
    Seqs.FilterKeepsOrder(tasks, ShownTasks(day));
  }

  /** A day's habits keep the order of the list they were picked from. */
  lemma HabitsOnKeepOrder(habits: seq<Habit>, day: Date, weekday: int)
    ensures exists m :: Seqs.Embeds(HabitsOn(habits, day, weekday), habits, m)
  {
    assert HabitsOn(habits, day, weekday) == Seqs.Filter(habits, ShownHabits(day, weekday));
    Seqs.FilterKeepsOrder(habits, ShownHabits(day, weekday));
  }

  /** Which habits show on a day, by frequency. */
  lemma HabitFrequencyRule(habits: seq<Habit>, day: Date, weekday: int, h: Habit)
    requires h in habits
    ensures h.frequency == "daily" ==> h in HabitsOn(habits, day, weekday)
    ensures h.frequency == "weekly" ==> (h in HabitsOn(habits, day, weekday) <==> weekday == 0)
    ensures h.frequency == "monthly" ==> (h in HabitsOn(habits, day, weekday) <==> day.day == 1)
    ensures h.frequency !in {"daily", "weekly", "monthly"} ==> h !in HabitsOn(habits, day, weekday)
  {
  }

  /** The line a task adds to its cell. */
  function TaskLine(t: Task): string {
    "• " + t.title + "\n"
  }

  /** The line a habit adds to its cell, marked by frequency. */
  function HabitLine(h: Habit): string {
    if h.frequency == "weekly" then "□ " + h.name + " (нед.)\n"
    else if h.frequency == "monthly" then "□ " + h.name + " (мес.)\n"
    else "□ " + h.name + "\n"
  }

  function TaskLines(tasks: seq<Task>): string {
    if tasks == [] then "" else TaskLine(tasks[0]) + TaskLines(tasks[1..])
  }

  function HabitLines(habits: seq<Habit>): string {
    if habits == [] then "" else HabitLine(habits[0]) + HabitLines(habits[1..])
  }

  /** The events text of one day cell in `update_calendar`: tasks first, then habits.
      `weekday` is the day's `weekday()`. Nothing is listed without a logged-in user. */
  function CellText(db: Db, session: AuthService.Session, day: Date, weekday: int, healthy: bool): (text: string)
    requires Valid(db)
    ensures !AuthService.IsAuthenticated(session) ==> text == ""
  {
    match session.currentUser
    case None => ""
    case Some(user) =>
      var tasks := TaskService.GetUserTasks(db, UserKey(user), None, None, "priority", "desc", healthy);
      var habits := HabitService.GetUserHabits(db, UserKey(user), healthy);
      TaskLines(TasksOn(tasks, day)) + HabitLines(HabitsOn(habits, day, weekday))
  }

  lemma OccursAfterPrefix(q: string, pre: string, s: string, i: int)
    requires Text.OccursAt(q, s, i)
    ensures Text.OccursAt(q, pre + s, |pre| + i)
  {
    assert (pre + s)[|pre| + i..|pre| + i + |q|] == s[i..i + |q|];
  }

  lemma OccursBeforeSuffix(q: string, s: string, post: string, i: int)
    requires Text.OccursAt(q, s, i)
    ensures Text.OccursAt(q, s + post, i)
  {
    assert (s + post)[i..i + |q|] == s[i..i + |q|];
  }

  /** Every task of the list has its line in the text. */
  lemma {:induction false} TaskLinesListEach(tasks: seq<Task>, t: Task)
    requires t in tasks
    ensures Text.OccursIn(TaskLine(t), TaskLines(tasks))
  {
    var rest := TaskLines(tasks[1..]);
    if tasks[0] == t {
      assert TaskLine(t) + rest == TaskLines(tasks);
      assert Text.OccursAt(TaskLine(t), TaskLine(t), 0);
      OccursBeforeSuffix(TaskLine(t), TaskLine(t), rest, 0);
    } else {
      TaskLinesListEach(tasks[1..], t);
      var i :| Text.OccursAt(TaskLine(t), rest, i);
      OccursAfterPrefix(TaskLine(t), TaskLine(tasks[0]), rest, i);
    }
  }

  /** Every habit of the list has its line in the text. */
  lemma {:induction false} HabitLinesListEach(habits: seq<Habit>, h: Habit)
    requires h in habits
    ensures Text.OccursIn(HabitLine(h), HabitLines(habits))
  {
    var rest := HabitLines(habits[1..]);
    if habits[0] == h {
      assert Text.OccursAt(HabitLine(h), HabitLine(h), 0);
      OccursBeforeSuffix(HabitLine(h), HabitLine(h), rest, 0);
    } else {
      HabitLinesListEach(habits[1..], h);
      var i :| Text.OccursAt(HabitLine(h), rest, i);
      OccursAfterPrefix(HabitLine(h), HabitLine(habits[0]), rest, i);
    }
  }

  /** A task of the day's list has its line in the cell text. */
  lemma TaskLineInCell(tasks: seq<Task>, habits: seq<Habit>, t: Task)
    requires t in tasks
    ensures Text.OccursIn(TaskLine(t), TaskLines(tasks) + HabitLines(habits))
  {
    TaskLinesListEach(tasks, t);
    var i :| Text.OccursAt(TaskLine(t), TaskLines(tasks), i);
    OccursBeforeSuffix(TaskLine(t), TaskLines(tasks), HabitLines(habits), i);
  }

  /** A habit of the day's list has its line in the cell text. */
  lemma HabitLineInCell(tasks: seq<Task>, habits: seq<Habit>, h: Habit)
    requires h in habits
    ensures Text.OccursIn(HabitLine(h), TaskLines(tasks) + HabitLines(habits))
  {
    HabitLinesListEach(habits, h);
    var i :| Text.OccursAt(HabitLine(h), HabitLines(habits), i);
    OccursAfterPrefix(HabitLine(h), TaskLines(tasks), HabitLines(habits), i);
  }

  /** Proof step only: unfolds `CellText` for a logged-in user into its task lines
      followed by its habit lines. */
  lemma CellTextLists(db: Db, session: AuthService.Session, day: Date, weekday: int)
    requires Valid(db) && AuthService.IsAuthenticated(session)
    ensures var uid := UserKey(session.currentUser.value);
            CellText(db, session, day, weekday, true)
            == TaskLines(TasksOn(TaskService.GetUserTasks(db, uid, None, None, "priority", "desc", true), day))
               + HabitLines(HabitsOn(HabitService.GetUserHabits(db, uid, true), day, weekday))
  {
  }

  /** A stored, unfinished task of a user created on `day` is in that day's list. */
  lemma TaskInDayList(db: Db, uid: int, day: Date, t: Task)
    requires Valid(db)
    requires t in db.tasks.rows.Values && t.userId == uid
    requires TaskShownOn(day, t)
    ensures t in TasksOn(TaskService.GetUserTasks(db, uid, None, None, "priority", "desc", true), day)
  {
    TaskService.GetUserTasksComplete(db, uid, None, None, "priority", "desc", t);
  }

  /** A stored, unfinished task of the logged-in user created on `day` appears in that
      day's cell. */
  lemma CellShowsTask(db: Db, session: AuthService.Session, day: Date, weekday: int, t: Task)
    requires Valid(db) && AuthService.IsAuthenticated(session)
    requires t in db.tasks.rows.Values && t.userId == UserKey(session.currentUser.value)
    requires TaskShownOn(day, t)
    ensures Text.OccursIn(TaskLine(t), CellText(db, session, day, weekday, true))
  {
    var uid := UserKey(session.currentUser.value);
    var tasks := TasksOn(TaskService.GetUserTasks(db, uid, None, None, "priority", "desc", true), day);
    var habits := HabitsOn(HabitService.GetUserHabits(db, uid, true), day, weekday);
    TaskInDayList(db, uid, day, t);
    CellTextLists(db, session, day, weekday);
    TaskLineInCell(tasks, habits, t);
  }

  /** A stored habit of a user that is due on `day` is in that day's list. */
  lemma HabitInDayList(db: Db, uid: int, day: Date, weekday: int, h: Habit)
    requires Valid(db)
    requires h in db.habits.rows.Values && h.userId == uid
    requires HabitShownOn(day, weekday, h)
    ensures h in HabitsOn(HabitService.GetUserHabits(db, uid, true), day, weekday)
  {
    assert h in HabitService.GetUserHabits(db, uid, true);
  }

  /** A stored habit of the logged-in user that is due on `day` appears in that day's cell. */
  lemma CellShowsHabit(db: Db, session: AuthService.Session, day: Date, weekday: int, h: Habit)
    requires Valid(db) && AuthService.IsAuthenticated(session)
    requires h in db.habits.rows.Values && h.userId == UserKey(session.currentUser.value)
    requires HabitShownOn(day, weekday, h)
    ensures Text.OccursIn(HabitLine(h), CellText(db, session, day, weekday, true))
  {
    var uid := UserKey(session.currentUser.value);
    var tasks := TasksOn(TaskService.GetUserTasks(db, uid, None, None, "priority", "desc", true), day);
    var habits := HabitsOn(HabitService.GetUserHabits(db, uid, true), day, weekday);
    HabitInDayList(db, uid, day, weekday, h);
    CellTextLists(db, session, day, weekday);
    HabitLineInCell(tasks, habits, h);
  }
}

=== FILE: clock.dfy ===
/** Calendar dates and timestamps as Python's `datetime` holds them, with the
    proleptic Gregorian calendar and the year range 1..9999 (`MINYEAR`..`MAXYEAR`). */
module Clock {

  import opened Wrappers

  datatype Date = Date(year: int, month: int, day: int)

  /** A timestamp: a date, the second of that day and the microsecond within it. */
  datatype DateTime = DateTime(date: Date, second: int, micro: int)

  const MinYear := 1
  const MaxYear := 9999

  predicate IsLeapYear(y: int) {
    y % 4 == 0 && (y % 100 != 0 || y % 400 == 0)
  }

  function DaysInMonth(y: int, m: int): int {
    if m == 2 then (if IsLeapYear(y) then 29 else 28)
    else if m == 4 || m == 6 || m == 9 || m == 11 then 30
    else 31
  }

  /** A date Python's `datetime` accepts. */
  predicate ValidDate(d: Date) {
    MinYear <= d.year <= MaxYear && 1 <= d.month <= 12 && 1 <= d.day <= DaysInMonth(d.year, d.month)
  }

  predicate ValidDateTime(t: DateTime) {
    ValidDate(t.date) && 0 <= t.second < 86400 && 0 <= t.micro < 1000000
  }

  /** A timestamp written as `%Y-%m-%d %H:%M:%S` and read back: the microseconds are lost. */
  function Truncate(t: DateTime): (r: DateTime)
    ensures r.date == t.date && r.second == t.second && r.micro == 0
  {
    t.(micro := 0)
  }

  /** Python's comparison of two `datetime` values: field by field, most significant first. */
  predicate Earlier(a: DateTime, b: DateTime) {
    || a.date.year < b.date.year
    || (a.date.year == b.date.year && a.date.month < b.date.month)
    || (a.date.year == b.date.year && a.date.month == b.date.month && a.date.day < b.date.day)
    || (a.date == b.date && a.second < b.second)
    || (a.date == b.date && a.second == b.second && a.micro < b.micro)
  }

  /** A position on one integer time line, used as the sort key of a timestamp. */
  function Ordinal(t: DateTime): int {
    ((((t.date.year * 12 + (t.date.month - 1)) * 31 + (t.date.day - 1)) * 86400 + t.second) * 1000000) + t.micro
  }

  /** A positive multiple of `base` is at least `base`. */
  lemma MultipleAtLeastBase(k: int, base: int)
    requires k >= 1 && base > 0
    ensures k * base >= base
  {
    var j := k - 1;
    assert j * base >= 0;
    assert k * base == j * base + base;
  }

  /** Comparing two digits of a mixed-radix number. */
  lemma MixedRadix(a: int, x: int, c: int, y: int, base: int)
    requires 0 <= x < base && 0 <= y < base
    ensures a * base + x < c * base + y <==> a < c || (a == c && x < y)
    ensures a * base + x == c * base + y <==> a == c && x == y
  {
    if a < c {
      MultipleAtLeastBase(c - a, base);
      assert c * base - a * base == (c - a) * base;
    } else if a > c {
      MultipleAtLeastBase(a - c, base);
      assert a * base - c * base == (a - c) * base;
    }
  }

  /** On valid timestamps the ordinal orders exactly as Python compares `datetime` values,
      and distinct timestamps have distinct ordinals. */
  lemma OrdinalMatchesComparison(a: DateTime, b: DateTime)
    requires ValidDateTime(a) && ValidDateTime(b)
    ensures Ordinal(a) < Ordinal(b) <==> Earlier(a, b)
    ensures Ordinal(a) == Ordinal(b) <==> a == b
  {
    var ym1 := a.date.year * 12 + (a.date.month - 1);
    var ym2 := b.date.year * 12 + (b.date.month - 1);
    MixedRadix(a.date.year, a.date.month - 1, b.date.year, b.date.month - 1, 12);
    var d1 := ym1 * 31 + (a.date.day - 1);
    var d2 := ym2 * 31 + (b.date.day - 1);
    MixedRadix(ym1, a.date.day - 1, ym2, b.date.day - 1, 31);
    var s1 := d1 * 86400 + a.second;
    var s2 := d2 * 86400 + b.second;
    MixedRadix(d1, a.second, d2, b.second, 86400);
    MixedRadix(s1, a.micro, s2, b.micro, 1000000);
  }

  /** The day before `d`, as `d - timedelta(days=1)`; `None` where Python raises
      `OverflowError` (before 1 January of year 1). */
  function PreviousDay(d: Date): (r: Option<Date>)
    requires ValidDate(d)
    ensures r.Some? <==> !(d.year == MinYear && d.month == 1 && d.day == 1)
    ensures r.Some? ==> ValidDate(r.value) && NextDay(r.value) == d
  {
    if d.day > 1 then Some(d.(day := d.day - 1))
    else if d.month > 1 then Some(Date(d.year, d.month - 1, DaysInMonth(d.year, d.month - 1)))
    else if d.year > MinYear then Some(Date(d.year - 1, 12, 31))
    else None
  }

  /** The day after `d`, as `d + timedelta(days=1)` (the caller keeps away from 31 December 9999). */
  function NextDay(d: Date): Date {
    if d.day < DaysInMonth(d.year, d.month) then d.(day := d.day + 1)
    else if d.month < 12 then Date(d.year, d.month + 1, 1)
    else Date(d.year + 1, 1, 1)
  }
}

=== FILE: habit_service.dfy ===
/** `HabitService`: habit CRUD over the `habits` table and the reminder check,
    which publishes through a `NotificationManager`. */
module HabitService {

  import opened Wrappers
  import opened Clock
  import opened Models
  import Store
  import Observer

  /** `create_habit`: inserts the habit with the creation time `now`. When the insert
      fails (no connection, driver error, or an owner that is not a stored user) the
      transaction is rolled back and nothing is added. */
  function CreateHabit(db: Db, userId: int, name: string, frequency: string, reminderTime: Option<string>,
                       now: DateTime, healthy: bool): (r: Step<Option<Habit>>)
    requires Valid(db)
    ensures Valid(r.db)
    ensures r.result.Some? <==> healthy && userId in db.users.rows
    ensures r.result.None? ==> r.db == db
    ensures r.result.Some? ==>
              var id := db.habits.nextId;
              && id !in db.habits.rows
              && r.result.value == Habit(Some(id), userId, name, frequency, reminderTime, Truncate(now))
              && r.db.habits.rows == db.habits.rows[id := r.result.value]
              && r.db.habits.nextId == id + 1
              && r.db == db.(habits := r.db.habits)
  {
    if !healthy || userId !in db.users.rows then Step(db, None)
    else
      var habit := Habit(Some(db.habits.nextId), userId, name, frequency, reminderTime, Truncate(now));
      Step(db.(habits := Store.Insert(db.habits, habit)), Some(habit))
  }

  predicate OwnedBy(userId: int, h: Habit) {
    h.userId == userId
  }

  /** `get_user_habits`: the user's habits in storage order. */
  function GetUserHabits(db: Db, userId: int, healthy: bool): (r: seq<Habit>)
    requires Valid(db)
    ensures forall x :: x in r <==> healthy && x in db.habits.rows.Values && x.userId == userId
    ensures forall i, j :: 0 <= i < j < |r| ==> HabitKey(r[i]) < HabitKey(r[j])
  {
    if healthy then
      var p := (h: Habit) => OwnedBy(userId, h);
      assert forall x :: x in Store.Select(db.habits, p) <==> x in db.habits.rows.Values && p(x) by {
        forall x { Store.SelectMember(db.habits, p, x); }
      }
      Store.SelectInIdOrder(db.habits, p, HabitKey);
      Store.Select(db.habits, p)
    else []
  }

  /** `update_habit`: writes name, frequency and reminder time onto the row with the
      habit's id; owner and creation time stay. Success is reported even when no row
      has that id. */
  function UpdateHabit(db: Db, habit: Habit, healthy: bool): (r: Step<bool>)
    requires Valid(db)
    ensures Valid(r.db)
    ensures r.result == healthy
    ensures r.db == db.(habits := r.db.habits) && r.db.habits.rows.Keys == db.habits.rows.Keys
    ensures r.db.habits.nextId == db.habits.nextId
    ensures forall k :: k in db.habits.rows ==>
              r.db.habits.rows[k] ==
                if healthy && habit.id == Some(k) then
                  db.habits.rows[k].(name := habit.name, frequency := habit.frequency, reminderTime := habit.reminderTime)
                else db.habits.rows[k]
  {
    if !healthy then Step(db, false)
    else if habit.id.None? || habit.id.value !in db.habits.rows then Step(db, true)
    else
      var id := habit.id.value;
      var stored := db.habits.rows[id];
      var edited := stored.(name := habit.name, frequency := habit.frequency, reminderTime := habit.reminderTime);
      Step(db.(habits := Store.Overwrite(db.habits, id, edited)), true)
  }

  /** `delete_habit`: removes the habit; success once the statement runs, matched or not. */
  function DeleteHabit(db: Db, id: int, healthy: bool): (r: Step<bool>)
    requires Valid(db)
    ensures Valid(r.db)
    ensures r.result == healthy
    ensures r.db.habits.rows.Keys == if healthy then db.habits.rows.Keys - {id} else db.habits.rows.Keys
    ensures forall k :: k in r.db.habits.rows ==> r.db.habits.rows[k] == db.habits.rows[k]
    ensures r.db.habits.nextId == db.habits.nextId
    ensures r.db == db.(habits := r.db.habits)
  {
    if healthy then Step(db.(habits := Store.Remove(db.habits, id)), true) else Step(db, false)
  }

  /** The text of a reminder for the habit called `name`. */
  function ReminderMessage(name: string): string {
    "Напоминание: Время выполнить привычку '" + name + "'"
  }

  predicate IsDue(now: string, h: Habit) {
    h.reminderTime == Some(now)
  }

  /** The habits of every user whose reminder time is exactly `now`, in storage order. */
  function DueHabits(db: Db, now: string): (r: seq<Habit>)
    requires Valid(db)
    ensures forall x :: x in r <==> x in db.habits.rows.Values && x.reminderTime == Some(now)
    ensures forall i, j :: 0 <= i < j < |r| ==> HabitKey(r[i]) < HabitKey(r[j])
  {
    var p := (h: Habit) => IsDue(now, h);
    assert forall x :: x in Store.Select(db.habits, p) <==> x in db.habits.rows.Values && p(x) by {
      forall x { Store.SelectMember(db.habits, p, x); }
    }
    Store.SelectInIdOrder(db.habits, p, HabitKey);
    Store.Select(db.habits, p)
  }

  /** One reminder text per habit, in the same order. */
  function Reminders(habits: seq<Habit>): (ms: seq<string>)
    ensures |ms| == |habits|
    ensures forall i :: 0 <= i < |ms| ==> ms[i] == ReminderMessage(habits[i].name)
  {
    if habits == [] then [] else [ReminderMessage(habits[0].name)] + Reminders(habits[1..])
  }

  /** `check_reminders`, with `now` the wall clock as "HH:MM": one notification per
      due habit, in storage order, each sent to every subscriber in attachment order
      before the next; nothing when the database cannot be read. */
  function CheckReminders(db: Db, hub: Observer.Hub, now: string, healthy: bool): (r: (Observer.Hub, seq<Observer.Delivery>))
    requires Valid(db)
    ensures r.0.observers == hub.observers
    ensures r.0.history == hub.history + (if healthy then Reminders(DueHabits(db, now)) else [])
    ensures |r.1| == (if healthy then |DueHabits(db, now)| else 0) * |hub.observers|
    ensures healthy ==> Observer.SentInBlocks(r.1, hub, Reminders(DueHabits(db, now)))
  {
    if healthy then
      var messages := Reminders(DueHabits(db, now));
      Observer.PublishInOrder(hub, messages);
      Observer.Publish(hub, messages)
    else (hub, [])
  }

  /** Each subscriber receives exactly the reminders of the due habits, once each and in
      storage order. */
  lemma CheckRemindersDelivery(db: Db, hub: Observer.Hub, now: string, o: Observer.ObserverRef)
    requires Valid(db) && Observer.NoDuplicates(hub.observers)
    ensures Observer.MessagesTo(CheckReminders(db, hub, now, true).1, o)
         == if o in hub.observers then Reminders(DueHabits(db, now)) else []
  {
    Observer.PublishReachesEverySubscriber(hub, Reminders(DueHabits(db, now)), o);
  }
}

=== FILE: library_service.dfy ===
/** `LibraryService`: books and their notes. A PDF is abstracted to the text of each
    page; the filesystem maps a path to what opening it yields. */
module LibraryService {

  import opened Wrappers
  import opened Clock
  import opened Models
  import Store

  /** What opening a path gives: a PDF with the extracted text of each page, or a
      file the PDF reader rejects. */
  datatype File = Pdf(pages: seq<string>) | Unreadable

  /** The files present on disk (`os.path.exists`), by path. */
  type Disk = map<string, File>

  /** `add_book`: checks that the path exists and opens as a PDF, then inserts the
      book on page 0. A missing or unreadable file, a failing driver, or an owner
      that is not a stored user gives `None` and adds nothing. */
  function AddBook(db: Db, disk: Disk, userId: int, title: string, author: Option<string>, path: string,
                   now: DateTime, healthy: bool): (r: Step<Option<Book>>)
    requires Valid(db)
    ensures Valid(r.db)
    ensures r.result.Some? <==> path in disk && disk[path].Pdf? && healthy && userId in db.users.rows
    ensures r.result.None? ==> r.db == db
    ensures r.result.Some? ==>
              var id := db.books.nextId;
              && id !in db.books.rows
              && r.result.value == Book(Some(id), userId, title, author, path, 0, Truncate(now))
              && r.db.books.rows == db.books.rows[id := r.result.value]
              && r.db.books.nextId == id + 1
              && r.db == db.(books := r.db.books)
  {
    if path !in disk || disk[path].Unreadable? then Step(db, None)
    else if !healthy || userId !in db.users.rows then Step(db, None)
    else
      var book := Book(Some(db.books.nextId), userId, title, author, path, 0, Truncate(now));
      Step(db.(books := Store.Insert(db.books, book)), Some(book))
  }

  predicate OwnedBy(userId: int, b: Book) {
    b.userId == userId
  }

  /** `get_user_books`: the user's books in storage order. */
  function GetUserBooks(db: Db, userId: int, healthy: bool): (r: seq<Book>)
    requires Valid(db)
    ensures forall x :: x in r <==> healthy && x in db.books.rows.Values && x.userId == userId
    ensures forall i, j :: 0 <= i < j < |r| ==> BookKey(r[i]) < BookKey(r[j])
  {
    if healthy then
      var p := (b: Book) => OwnedBy(userId, b);
      assert forall x :: x in Store.Select(db.books, p) <==> x in db.books.rows.Values && p(x) by {
        forall x { Store.SelectMember(db.books, p, x); }
      }
      Store.SelectInIdOrder(db.books, p, BookKey);
      Store.Select(db.books, p)
    else []
  }

  /** `update_current_page`: sets the page with no bounds check; success even when no
      book has that id. */
  function UpdateCurrentPage(db: Db, bookId: int, page: int, healthy: bool): (r: Step<bool>)
    requires Valid(db)
    ensures Valid(r.db)
    ensures r.result == healthy
    ensures r.db == db.(books := r.db.books) && r.db.books.rows.Keys == db.books.rows.Keys
    ensures r.db.books.nextId == db.books.nextId
    ensures forall k :: k in db.books.rows ==>
              r.db.books.rows[k] == if healthy && k == bookId then db.books.rows[k].(currentPage := page)
                                    else db.books.rows[k]
  {
    if !healthy then Step(db, false)
    else if bookId !in db.books.rows then Step(db, true)
    else Step(db.(books := Store.Overwrite(db.books, bookId, db.books.rows[bookId].(currentPage := page))), true)
  }

  /** `add_note`: stores the note as given. A book id with no book violates the
      foreign key and nothing is stored. */
  function AddNote(db: Db, bookId: int, pageNumber: int, content: string, now: DateTime, healthy: bool): (r: Step<Option<Note>>)
    requires Valid(db)
    ensures Valid(r.db)
    ensures r.result.Some? <==> healthy && bookId in db.books.rows
    ensures r.result.None? ==> r.db == db
    ensures r.result.Some? ==>
              var id := db.notes.nextId;
              && id !in db.notes.rows
              && r.result.value == Note(Some(id), bookId, pageNumber, content, Truncate(now))
              && r.db.notes.rows == db.notes.rows[id := r.result.value]
              && r.db.notes.nextId == id + 1
              && r.db == db.(notes := r.db.notes)
  {
    if !healthy || bookId !in db.books.rows then Step(db, None)
    else
      var note := Note(Some(db.notes.nextId), bookId, pageNumber, content, Truncate(now));
      Step(db.(notes := Store.Insert(db.notes, note)), Some(note))
  }

  predicate OfBook(bookId: int, n: Note) {
    n.bookId == bookId
  }

  /** `get_book_notes`: the book's notes in storage order. */
  function GetBookNotes(db: Db, bookId: int, healthy: bool): (r: seq<Note>)
    requires Valid(db)
    ensures forall x :: x in r <==> healthy && x in db.notes.rows.Values && x.bookId == bookId
    ensures forall i, j :: 0 <= i < j < |r| ==> NoteKey(r[i]) < NoteKey(r[j])
  {
    if healthy then
      var p := (n: Note) => OfBook(bookId, n);
      assert forall x :: x in Store.Select(db.notes, p) <==> x in db.notes.rows.Values && p(x) by {
        forall x { Store.SelectMember(db.notes, p, x); }
      }
      Store.SelectInIdOrder(db.notes, p, NoteKey);
      Store.Select(db.notes, p)
    else []
  }

  /** `get_book_by_id`. */
  function GetBookById(db: Db, bookId: int, healthy: bool): (r: Option<Book>)
    requires Valid(db)
    ensures r.Some? <==> healthy && bookId in db.books.rows
    ensures r.Some? ==> r.value == db.books.rows[bookId]
  {
    if healthy then Store.Get(db.books, bookId) else None
  }

  /** `get_page_content`: the text of the zero-based page of the book's PDF, and ""
      when the book, its file or the page does not exist or the file does not open. */
  function GetPageContent(db: Db, disk: Disk, bookId: int, page: int, healthy: bool): (text: string)
    requires Valid(db)
    ensures var b := GetBookById(db, bookId, healthy);
            if b.Some? && b.value.filePath in disk && disk[b.value.filePath].Pdf?
               && 0 <= page < |disk[b.value.filePath].pages|
            then text == disk[b.value.filePath].pages[page]
            else text == ""
  {
    match GetBookById(db, bookId, healthy)
    case None => ""
    case Some(book) =>
      if book.filePath !in disk then ""
      else match disk[book.filePath]
        case Unreadable => ""
        case Pdf(pages) => if 0 <= page < |pages| then pages[page] else ""
  }

  /** A book just added shows its PDF's pages, and nothing outside them. */
  lemma AddedBookPages(db: Db, disk: Disk, userId: int, title: string, author: Option<string>, path: string,
                       now: DateTime, page: int)
    requires Valid(db) && path in disk && disk[path].Pdf? && userId in db.users.rows
    ensures var r := AddBook(db, disk, userId, title, author, path, now, true);
            GetPageContent(r.db, disk, db.books.nextId, page, true)
              == if 0 <= page < |disk[path].pages| then disk[path].pages[page] else ""
  {
  }
}

=== FILE: main_window.dfy ===
/** The routing rules of the main window (`MainWindow`): which frame is shown for a
    request, and when the logout button is enabled. */
module MainWindow {

  import opened Wrappers
  import AuthService

  /** The keys of the window's frame table. */
  const FrameNames: set<string> := {"auth", "tasks", "habits", "library", "calendar"}

  /** What routing looks at and changes: the session, the frame packed into the content
      area (`None` when every frame is hidden) and the logout button's state. */
  datatype Window = Window(session: AuthService.Session, shown: Option<string>, logoutEnabled: bool)

  /** The frame a request is redirected to before lookup: anything but "auth" goes to
      "auth" when nobody is logged in, and "auth" goes to "tasks" when someone is. */
  function Target(session: AuthService.Session, name: string): (t: string)
    ensures !AuthService.IsAuthenticated(session) ==> t == "auth"
    ensures AuthService.IsAuthenticated(session) ==> t != "auth"
    ensures AuthService.IsAuthenticated(session) && name == "auth" ==> t == "tasks"
    ensures AuthService.IsAuthenticated(session) && name != "auth" ==> t == name
  {
    var name1 := if name != "auth" && !AuthService.IsAuthenticated(session) then "auth" else name;
    if name1 == "auth" && AuthService.IsAuthenticated(session) then "tasks" else name1
  }

  /** `_update_navigation_state`: logout is enabled exactly while someone is logged in. */
  function UpdateNavigationState(w: Window): (w': Window)
    ensures w'.logoutEnabled <==> AuthService.IsAuthenticated(w.session)
    ensures w'.session == w.session && w'.shown == w.shown
  {
    w.(logoutEnabled := AuthService.IsAuthenticated(w.session))
  }

  /** `show_frame`: hide every frame, then show the redirected one and refresh the
      navigation. A name outside the frame table fails the lookup (the second component
      is `false`) after the frames are hidden and before the navigation refresh. */
  function ShowFrame(w: Window, name: string): (r: (Window, bool))
    ensures r.0.session == w.session
    ensures r.1 <==> Target(w.session, name) in FrameNames
    ensures r.1 ==> r.0.shown == Some(Target(w.session, name))
                    && (r.0.logoutEnabled <==> AuthService.IsAuthenticated(w.session))
    ensures !r.1 ==> r.0.shown == None && r.0.logoutEnabled == w.logoutEnabled
  {
    var target := Target(w.session, name);
    var hidden := w.(shown := None);
    if target in FrameNames then (UpdateNavigationState(hidden.(shown := Some(target))), true)
    else (hidden, false)
  }

  /** The login frame is on screen after a request exactly when nobody is logged in,
      and an anonymous request always succeeds. */
  lemma AuthShownIffAnonymous(w: Window, name: string)
    ensures ShowFrame(w, name).0.shown == Some("auth") <==> !AuthService.IsAuthenticated(w.session)
    ensures !AuthService.IsAuthenticated(w.session) ==> ShowFrame(w, name).1
  {
  }

  /** A logged-in request for a known frame other than "auth" shows that frame. */
  lemma KnownFrameShown(w: Window, name: string)
    requires AuthService.IsAuthenticated(w.session) && name in FrameNames - {"auth"}
    ensures ShowFrame(w, name) == (w.(shown := Some(name), logoutEnabled := true), true)
  {
  }

  /** `_show_initial_frame`: tasks for a logged-in user, the login frame otherwise. */
  function ShowInitialFrame(w: Window): (w': Window)
    ensures w'.session == w.session
    ensures w'.shown == Some(if AuthService.IsAuthenticated(w.session) then "tasks" else "auth")
    ensures w'.logoutEnabled <==> AuthService.IsAuthenticated(w.session)
  {
    ShowFrame(w, if AuthService.IsAuthenticated(w.session) then "tasks" else "auth").0
  }

  /** `_handle_logout`: end the session, refresh the navigation, show the login frame. */
  function HandleLogout(w: Window): (w': Window)
    ensures !AuthService.IsAuthenticated(w'.session)
    ensures w'.shown == Some("auth") && !w'.logoutEnabled
  {
    ShowFrame(UpdateNavigationState(w.(session := AuthService.Logout(w.session))), "auth").0
  }
}

=== FILE: models.dfy ===
/** The five record types of the application and the database that holds them:
    `users`, `tasks`, `habits`, `books` and `notes`, each an id-keyed table. */
module Models {

  import opened Wrappers
  import opened Clock
  import Store

  /** A SHA-256 digest of a password. Two digests are equal exactly when the
      passwords are: collisions are not modelled. */
  datatype Digest = Sha256(password: string)

  datatype User = User(id: Option<int>, username: string, passwordHash: Digest, createdAt: DateTime)

  datatype Task = Task(
    id: Option<int>, userId: int, title: string, description: Option<string>,
    status: string, priority: int, color: Option<string>, createdAt: DateTime)

  datatype Habit = Habit(
    id: Option<int>, userId: int, name: string, frequency: string,
    reminderTime: Option<string>, createdAt: DateTime)

  datatype Book = Book(
    id: Option<int>, userId: int, title: string, author: Option<string>,
    filePath: string, currentPage: int, createdAt: DateTime)

  datatype Note = Note(id: Option<int>, bookId: int, pageNumber: int, content: string, createdAt: DateTime)

  datatype Db = Db(
    users: Store.Table<User>, tasks: Store.Table<Task>, habits: Store.Table<Habit>,
    books: Store.Table<Book>, notes: Store.Table<Note>)

  /** The state after a call that may write, with the value the call returns. */
  datatype Step<T> = Step(db: Db, result: T)

  /** The id a stored row carries, 0 (never a real id) when it has none. */
  function Key(id: Option<int>): int {
    if id.Some? then id.value else 0
  }

  function UserKey(u: User): int { Key(u.id) }
  function TaskKey(t: Task): int { Key(t.id) }
  function HabitKey(h: Habit): int { Key(h.id) }
  function BookKey(b: Book): int { Key(b.id) }
  function NoteKey(n: Note): int { Key(n.id) }

  /** Every row carries the id it is stored under. */
  ghost predicate Keyed<R>(t: Store.Table<R>, key: R -> int) {
    Store.Valid(t) && forall k :: k in t.rows ==> key(t.rows[k]) == k
  }

  /** What the schema guarantees: ids as stored, unique user names, and
      `FOREIGN KEY` references that resolve (enforced by `PRAGMA foreign_keys = ON`). */
  ghost predicate Valid(db: Db) {
    && Keyed(db.users, UserKey) && Keyed(db.tasks, TaskKey) && Keyed(db.habits, HabitKey)
    && Keyed(db.books, BookKey) && Keyed(db.notes, NoteKey)
    && (forall a, b :: a in db.users.rows && b in db.users.rows && a != b
          ==> db.users.rows[a].username != db.users.rows[b].username)
    && (forall k :: k in db.tasks.rows ==> db.tasks.rows[k].userId in db.users.rows)
    && (forall k :: k in db.habits.rows ==> db.habits.rows[k].userId in db.users.rows)
    && (forall k :: k in db.books.rows ==> db.books.rows[k].userId in db.users.rows)
    && (forall k :: k in db.notes.rows ==> db.notes.rows[k].bookId in db.books.rows)
  }

  /** A freshly initialised database: every table exists and is empty. */
  function EmptyDb(): (db: Db)
    ensures Valid(db)
    ensures db.users.rows == map[] && db.tasks.rows == map[] && db.habits.rows == map[]
    ensures db.books.rows == map[] && db.notes.rows == map[]
  {
    Db(Store.Empty(), Store.Empty(), Store.Empty(), Store.Empty(), Store.Empty())
  }
}

=== FILE: observer.dfy ===
/** `Subject` and `NotificationManager`: an ordered list of subscribers without
    duplicates, and the history of every message published. Subscribers are
    identified by reference; a delivery records which subscriber's `update`
    received which message. */
module Observer {

  import opened Wrappers

  /** The identity of one subscriber object. */
  datatype ObserverRef = ObserverRef(id: int)

  datatype Hub = Hub(observers: seq<ObserverRef>, history: seq<string>)

  datatype Delivery = Delivery(observer: ObserverRef, message: string)

  /** The detach error: Python's `list.remove` raises for a missing element. */
  datatype DetachError = NotAttached

  predicate NoDuplicates(s: seq<ObserverRef>) {
    forall i, j :: 0 <= i < j < |s| ==> s[i] != s[j]
  }

  /** The hub as `NotificationManager()` creates it. */
  function NewHub(): (h: Hub)
    ensures h.observers == [] && h.history == []
  {
    Hub([], [])
  }

  /** `attach`: appends a subscriber that is not there yet; otherwise nothing changes. */
  function Attach(h: Hub, o: ObserverRef): (h': Hub)
    ensures NoDuplicates(h.observers) ==> NoDuplicates(h'.observers)
    ensures o in h'.observers && h'.history == h.history
    ensures o in h.observers ==> h' == h
    ensures o !in h.observers ==> h'.observers == h.observers + [o]
  {
    if o in h.observers then h else h.(observers := h.observers + [o])
  }

  /** Position of the first occurrence of `o`. */
  function IndexOf(s: seq<ObserverRef>, o: ObserverRef): (i: nat)
    requires o in s
    ensures i < |s| && s[i] == o && o !in s[..i]
  {
    if s[0] == o then 0 else 1 + IndexOf(s[1..], o)
  }

  /** `list.remove`: deletes the first occurrence. */
  function RemoveFirst(s: seq<ObserverRef>, o: ObserverRef): (r: seq<ObserverRef>)
    requires o in s
    ensures r == s[..IndexOf(s, o)] + s[IndexOf(s, o) + 1..]
  {
    if s[0] == o then s[1..]
    else
      assert s[1..][..IndexOf(s[1..], o)] == s[1..IndexOf(s, o)];
      [s[0]] + RemoveFirst(s[1..], o)
  }

  /** Dropping position `i` from a duplicate-free list leaves it duplicate-free. */
  lemma DropKeepsDistinct(s: seq<ObserverRef>, i: nat)
    requires i < |s| && NoDuplicates(s)
    ensures NoDuplicates(s[..i] + s[i + 1..])
  {
    var r := s[..i] + s[i + 1..];
    forall a, b | 0 <= a < b < |r|
      ensures r[a] != r[b]
    {
      var a' := if a < i then a else a + 1;
      var b' := if b < i then b else b + 1;
      assert r[a] == s[a'] && r[b] == s[b'];
    }
  }

  /** Removing the one occurrence of `o` from a duplicate-free list keeps every other
      element, once each. */
  lemma RemoveFirstOfDistinct(s: seq<ObserverRef>, o: ObserverRef)
    requires o in s
    ensures NoDuplicates(s) ==>
            var r := RemoveFirst(s, o);
            && NoDuplicates(r)
            && (forall x :: x in r <==> x in s && x != o)
            && |r| == |s| - 1
  {
    if !NoDuplicates(s) { return; }
    var i := IndexOf(s, o);
    var pre, post := s[..i], s[i + 1..];
    assert s == pre + [o] + post;
    assert o !in post by {
      forall k | 0 <= k < |post| ensures post[k] != o {
        assert post[k] == s[i + 1 + k];
      }
    }
    DropKeepsDistinct(s, i);
    forall x
      ensures x in pre + post <==> x in s && x != o
    {
      assert x in pre + post <==> x in pre || x in post;
      assert x in s <==> x in pre || x == o || x in post;
    }
  }

  /** `detach`: removes a subscriber, raising when it is not attached. */
  function Detach(h: Hub, o: ObserverRef): (r: Result<Hub, DetachError>)
    ensures r.Err? <==> o !in h.observers
    ensures r.Ok? ==> r.value.history == h.history
    ensures r.Ok? ==> r.value.observers == RemoveFirst(h.observers, o)
    ensures r.Ok? && NoDuplicates(h.observers) ==>
              && NoDuplicates(r.value.observers)
              && (forall x :: x in r.value.observers <==> x in h.observers && x != o)
              && |r.value.observers| == |h.observers| - 1
  {
    if o !in h.observers then Err(NotAttached)
    else
      var r := RemoveFirst(h.observers, o);
      RemoveFirstOfDistinct(h.observers, o);
      Ok(h.(observers := r))
  }

  /** One `update(message)` per subscriber of `observers`, in order. */
  function Fanout(observers: seq<ObserverRef>, message: string): (ds: seq<Delivery>)
    ensures |ds| == |observers|
    ensures forall i :: 0 <= i < |ds| ==> ds[i] == Delivery(observers[i], message)
  {
    if observers == [] then []
    else [Delivery(observers[0], message)] + Fanout(observers[1..], message)
  }

  /** `notify`: one `update` call per subscriber, in attachment order. */
  function Notify(h: Hub, message: string): (ds: seq<Delivery>)
    ensures |ds| == |h.observers|
    ensures forall i :: 0 <= i < |ds| ==> ds[i].observer == h.observers[i] && ds[i].message == message
  {
    Fanout(h.observers, message)
  }

  /** The messages `o` received, in the order received. */
  function MessagesTo(ds: seq<Delivery>, o: ObserverRef): seq<string> {
    if ds == [] then []
    else (if ds[0].observer == o then [ds[0].message] else []) + MessagesTo(ds[1..], o)
  }

  lemma {:induction false} MessagesToAppend(a: seq<Delivery>, b: seq<Delivery>, o: ObserverRef)
    ensures MessagesTo(a + b, o) == MessagesTo(a, o) + MessagesTo(b, o)
  {
    if a == [] {
      assert a + b == b;
    } else {
      assert (a + b)[1..] == a[1..] + b;
      MessagesToAppend(a[1..], b, o);
    }
  }

  /** With no duplicate subscribers, each attached subscriber gets the message exactly
      once and nobody else gets it. */
  lemma {:induction false} NotifyExactlyOnce(h: Hub, message: string, o: ObserverRef)
    requires NoDuplicates(h.observers)
    ensures MessagesTo(Notify(h, message), o) == if o in h.observers then [message] else []
  {
    FanoutExactlyOnce(h.observers, message, o);
  }

  lemma {:induction false} FanoutExactlyOnce(observers: seq<ObserverRef>, message: string, o: ObserverRef)
    requires NoDuplicates(observers)
    ensures MessagesTo(Fanout(observers, message), o) == if o in observers then [message] else []
  {
    if observers != [] {
      var rest := observers[1..];
      assert NoDuplicates(rest);
      FanoutExactlyOnce(rest, message, o);
      assert observers[0] !in rest;
      assert observers == [observers[0]] + rest;
      assert Fanout(observers, message)[1..] == Fanout(rest, message);
    }
  }

  /** `add_notification`: records the message, then notifies every subscriber. */
  function AddNotification(h: Hub, message: string): (r: (Hub, seq<Delivery>))
    ensures r.0.observers == h.observers
    ensures r.0.history == h.history + [message]
    ensures r.1 == Notify(h, message)
  {
    (h.(history := h.history + [message]), Notify(h, message))
  }

  /** `add_notification` for several messages in turn. */
  function Publish(h: Hub, messages: seq<string>): (r: (Hub, seq<Delivery>))
    ensures r.0.observers == h.observers
    ensures r.0.history == h.history + messages
    ensures |r.1| == |messages| * |h.observers|
    decreases |messages|
  {
    if messages == [] then (h, [])
    else
      var first := AddNotification(h, messages[0]);
      var rest := Publish(first.0, messages[1..]);
      assert first.0.history + messages[1..] == h.history + messages;
      (rest.0, first.1 + rest.1)
  }

  /** Deliveries `i * n` up to `i * n + n` of `ds` exist and are `block`. */
  ghost predicate BlockIs(ds: seq<Delivery>, n: nat, i: int, block: seq<Delivery>) {
    0 <= i * n && i * n + n <= |ds| && ds[i * n..i * n + n] == block
  }

  /** `ds` is `messages` sent one after another, each to every subscriber of `h` in
      attachment order: block `i` of `|h.observers|` deliveries is message `i`. */
  ghost predicate SentInBlocks(ds: seq<Delivery>, h: Hub, messages: seq<string>) {
    forall i {:trigger messages[i]} :: 0 <= i < |messages| ==>
      BlockIs(ds, |h.observers|, i, Notify(h, messages[i]))
  }

  /** Deliveries go message by message, each message to every subscriber in attachment
      order before the next message. */
  lemma PublishInOrder(h: Hub, messages: seq<string>)
    ensures SentInBlocks(Publish(h, messages).1, h, messages)
  {
    forall i {:trigger messages[i]} | 0 <= i < |messages|
      ensures BlockIs(Publish(h, messages).1, |h.observers|, i, Notify(h, messages[i]))
    {
      PublishBlock(h, messages, i);
    }
  }

  /** The `i`-th block of a run of notifications, by induction on `i`. */
  lemma {:induction false} PublishBlock(h: Hub, messages: seq<string>, i: int)
    requires 0 <= i < |messages|
    ensures BlockIs(Publish(h, messages).1, |h.observers|, i, Notify(h, messages[i]))
    decreases i
  {
    var first := AddNotification(h, messages[0]);
    var rest := Publish(first.0, messages[1..]);
    assert Publish(h, messages).1 == first.1 + rest.1;
    if i == 0 {
      FirstBlock(first.1, rest.1);
    } else {
      PublishBlock(first.0, messages[1..], i - 1);
      assert messages[1..][i - 1] == messages[i];
      LaterBlock(first.1, rest.1, i, Notify(h, messages[i]));
    }
  }

  /** The first block of `a + b`, in blocks of `|a|`, is `a`. */
  lemma FirstBlock(a: seq<Delivery>, b: seq<Delivery>)
    ensures BlockIs(a + b, |a|, 0, a)
  {
    assert (a + b)[..|a|] == a;
  }

  /** Block `i` of `a + b`, in blocks of `|a|`, is block `i - 1` of `b`. */
  lemma LaterBlock(a: seq<Delivery>, b: seq<Delivery>, i: int, block: seq<Delivery>)
    requires 1 <= i && BlockIs(b, |a|, i - 1, block)
    ensures BlockIs(a + b, |a|, i, block)
  {
    var n := |a|;
    var k := (i - 1) * n;
    assert i * n == n + k;
    assert (a + b)[n + k..n + k + n] == b[k..k + n];
  }

  /** Every attached subscriber receives every published message once, in publishing
      order; a subscriber that is not attached receives nothing. */
  lemma {:induction false} PublishReachesEverySubscriber(h: Hub, messages: seq<string>, o: ObserverRef)
    requires NoDuplicates(h.observers)
    ensures MessagesTo(Publish(h, messages).1, o) == if o in h.observers then messages else []
    decreases |messages|
  {
    if messages != [] {
      var first := AddNotification(h, messages[0]);
      var rest := Publish(first.0, messages[1..]).1;
      assert Publish(h, messages).1 == first.1 + rest;
      PublishReachesEverySubscriber(first.0, messages[1..], o);
      MessagesToAppend(first.1, rest, o);
      NotifyExactlyOnce(h, messages[0], o);
      assert messages == [messages[0]] + messages[1..];
    }
  }
}

=== FILE: seqs.dfy ===
/** Order-preserving filtering of sequences, the model of Python list comprehensions
    of the form `[x for x in xs if p(x)]`. */
module Seqs {

  /** The elements of `s` that satisfy `p`, in their original order. */
  function Filter<T>(s: seq<T>, p: T -> bool): (r: seq<T>)
    ensures |r| <= |s|
    ensures forall i :: 0 <= i < |r| ==> r[i] in s && p(r[i])
    ensures forall i :: 0 <= i < |s| && p(s[i]) ==> s[i] in r
  {
    if s == [] then []
    else (if p(s[0]) then [s[0]] else []) + Filter(s[1..], p)
  }

  /** `m` picks, in increasing positions of `s`, the elements of `r`: `r` is `s` with
      some elements left out and the rest in their original order. */
  ghost predicate Embeds<T>(r: seq<T>, s: seq<T>, m: seq<int>) {
    && |m| == |r|
    && (forall i :: 0 <= i < |m| ==> 0 <= m[i] < |s| && s[m[i]] == r[i])
    && (forall i, j :: 0 <= i < j < |m| ==> m[i] < m[j])
  }

  /** Filtering keeps the surviving elements in their original order. */
  lemma {:induction false} FilterKeepsOrder<T>(s: seq<T>, p: T -> bool)
    ensures exists m :: Embeds(Filter(s, p), s, m)
  {
    if s == [] {
      assert Embeds(Filter(s, p), s, []);
    } else {
      FilterKeepsOrder(s[1..], p);
      var rest := Filter(s[1..], p);
      var m :| Embeds(rest, s[1..], m);
      var shifted := EmbedInLonger(rest, s, m);
      if p(s[0]) {
        assert Filter(s, p) == [s[0]] + rest;
        EmbedWithHead(rest, s, shifted);
      } else {
        assert Filter(s, p) == rest;
      }
    }
  }

  /** An embedding into the tail is an embedding into the whole, one position later. */
  lemma EmbedInLonger<T>(r: seq<T>, s: seq<T>, m: seq<int>) returns (shifted: seq<int>)
    requires s != [] && Embeds(r, s[1..], m)
    ensures Embeds(r, s, shifted)
    ensures forall i :: 0 <= i < |shifted| ==> shifted[i] >= 1
  {
    shifted := seq(|m|, i requires 0 <= i < |m| => m[i] + 1);
    forall i | 0 <= i < |shifted|
      ensures 0 <= shifted[i] < |s| && s[shifted[i]] == r[i]
    {
      assert s[1..][m[i]] == s[m[i] + 1];
    }
  }

  /** Keeping the head in front of an embedding that avoids position 0. */
  lemma EmbedWithHead<T>(r: seq<T>, s: seq<T>, m: seq<int>)
    requires s != [] && Embeds(r, s, m)
    requires forall i :: 0 <= i < |m| ==> m[i] >= 1
    ensures Embeds([s[0]] + r, s, [0] + m)
  {
    var r', m' := [s[0]] + r, [0] + m;
    forall i | 0 <= i < |m'|
      ensures 0 <= m'[i] < |s| && s[m'[i]] == r'[i]
    {
      if i > 0 {
        assert m'[i] == m[i - 1] && r'[i] == r[i - 1];
      }
    }
  }

  /** Membership in a filtered sequence, stated per element. */
  lemma FilterMember<T>(s: seq<T>, p: T -> bool, x: T)
    ensures x in Filter(s, p) <==> x in s && p(x)
  {
    if x in Filter(s, p) {
      var i :| 0 <= i < |Filter(s, p)| && Filter(s, p)[i] == x;
    }
  }

  /** Filtering keeps exactly the `p`-satisfying copies of every element. */
  lemma {:induction false} FilterMultiset<T>(s: seq<T>, p: T -> bool, x: T)
    ensures multiset(Filter(s, p))[x] == if p(x) then multiset(s)[x] else 0
  {
    if s != [] {
      FilterMultiset(s[1..], p, x);
      assert s == [s[0]] + s[1..];
    }
  }

  /** Two permutations of each other keep the same number of `p`-elements. */
  lemma CountOfPermutation<T>(a: seq<T>, b: seq<T>, p: T -> bool)
    requires multiset(a) == multiset(b)
    ensures |Filter(a, p)| == |Filter(b, p)|
  {
    forall x
      ensures multiset(Filter(a, p))[x] == multiset(Filter(b, p))[x]
    {
      FilterMultiset(a, p, x);
      FilterMultiset(b, p, x);
    }
    assert multiset(Filter(a, p)) == multiset(Filter(b, p));
    assert |multiset(Filter(a, p))| == |multiset(Filter(b, p))|;
  }

  /** A strictly increasing measure stays strictly increasing on any filtered subsequence. */
  lemma FilterKeepsIncreasing<T>(s: seq<T>, p: T -> bool, f: T -> int)
    ensures (forall i, j :: 0 <= i < j < |s| ==> f(s[i]) < f(s[j]))
        ==> (forall i, j :: 0 <= i < j < |Filter(s, p)| ==> f(Filter(s, p)[i]) < f(Filter(s, p)[j]))
  {
    var r := Filter(s, p);
    FilterKeepsOrder(s, p);
    var m :| Embeds(r, s, m);
    if forall i, j :: 0 <= i < j < |s| ==> f(s[i]) < f(s[j]) {
      forall i, j | 0 <= i < j < |r|
        ensures f(r[i]) < f(r[j])
      {
        assert r[i] == s[m[i]] && r[j] == s[m[j]];
      }
    }
  }

  /** Two conditions that never hold together select at most `|s|` elements between them. */
  lemma {:induction false} DisjointFiltersFit<T>(s: seq<T>, p: T -> bool, q: T -> bool)
    requires forall x :: !(p(x) && q(x))
    ensures |Filter(s, p)| + |Filter(s, q)| <= |s|
  {
    if s != [] {
      DisjointFiltersFit(s[1..], p, q);
    }
  }
}

=== FILE: sorting.dfy ===
/** Python's `list.sort(key=..., reverse=...)` over an integer key: a stable sort.
    With `reverse=True` Python still keeps equal-key elements in their original
    order, so both directions are stable. */
module Sorting {

  /** `a` may come before `b` in the requested direction. */
  predicate InOrder(a: int, b: int, desc: bool) {
    if desc then a >= b else a <= b
  }

  ghost predicate SortedBy<T>(s: seq<T>, key: T -> int, desc: bool) {
    forall i, j :: 0 <= i < j < |s| ==> InOrder(key(s[i]), key(s[j]), desc)
  }

  /** The elements of `s` whose key is `k`, in their order in `s`. */
  function WithKey<T>(s: seq<T>, key: T -> int, k: int): seq<T> {
    if s == [] then []
    else (if key(s[0]) == k then [s[0]] else []) + WithKey(s[1..], key, k)
  }

  /** Sorting is stable: among equal keys the input order survives. */
  ghost predicate Stable<T>(input: seq<T>, output: seq<T>, key: T -> int) {
    forall k :: WithKey(output, key, k) == WithKey(input, key, k)
  }

  /** Inserts `x` before the first element it may precede. */
  function Insert<T>(x: T, s: seq<T>, key: T -> int, desc: bool): (r: seq<T>)
    ensures multiset(r) == multiset(s) + multiset{x}
  {
    if s == [] || InOrder(key(x), key(s[0]), desc) then [x] + s
    else
      assert s == [s[0]] + s[1..];
      [s[0]] + Insert(x, s[1..], key, desc)
  }

  lemma {:induction false} InsertSorted<T>(x: T, s: seq<T>, key: T -> int, desc: bool)
    requires SortedBy(s, key, desc)
    ensures SortedBy(Insert(x, s, key, desc), key, desc)
  {
    if s == [] || InOrder(key(x), key(s[0]), desc) {
    } else {
      InsertSorted(x, s[1..], key, desc);
      var rest := Insert(x, s[1..], key, desc);
      forall y | y in rest
        ensures InOrder(key(s[0]), key(y), desc)
      {
        assert y in multiset(rest);
        if y != x {
          assert y in multiset(s[1..]);
          var j :| 0 <= j < |s[1..]| && s[1..][j] == y;
          assert s[j + 1] == y;
        }
      }
      var r := [s[0]] + rest;
      forall i, j | 0 <= i < j < |r|
        ensures InOrder(key(r[i]), key(r[j]), desc)
      {
        if i == 0 {
          assert r[j] == rest[j - 1];
          assert r[j] in rest;
        } else {
          assert r[i] == rest[i - 1] && r[j] == rest[j - 1];
        }
      }
    }
  }

  lemma SortedTail<T>(s: seq<T>, key: T -> int, desc: bool)
    requires s != [] && SortedBy(s, key, desc)
    ensures SortedBy(s[1..], key, desc)
  {
    forall i, j | 0 <= i < j < |s[1..]|
      ensures InOrder(key(s[1..][i]), key(s[1..][j]), desc)
    {
      assert s[1..][i] == s[i + 1] && s[1..][j] == s[j + 1];
    }
  }

  /** Inserting into a sorted sequence places `x` ahead of all elements with its own key. */
  lemma {:induction false} InsertWithKey<T>(x: T, s: seq<T>, key: T -> int, desc: bool, k: int)
    requires SortedBy(s, key, desc)
    ensures WithKey(Insert(x, s, key, desc), key, k)
         == (if key(x) == k then [x] else []) + WithKey(s, key, k)
  {
    if s == [] || InOrder(key(x), key(s[0]), desc) {
      assert ([x] + s)[1..] == s;
    } else {
      var rest := Insert(x, s[1..], key, desc);
      SortedTail(s, key, desc);
      InsertWithKey(x, s[1..], key, desc, k);
      assert key(s[0]) != key(x);
      var r := [s[0]] + rest;
      assert r[1..] == rest;
      assert WithKey(r, key, k) == (if key(s[0]) == k then [s[0]] else []) + WithKey(rest, key, k);
    }
  }

  /** The stable sort: a sorted permutation of `s`. */
  function Sort<T>(s: seq<T>, key: T -> int, desc: bool): (r: seq<T>)
    ensures multiset(r) == multiset(s)
    ensures SortedBy(r, key, desc)
    ensures |r| == |s|
  {
    if s == [] then []
    else
      var rest := Sort(s[1..], key, desc);
      InsertSorted(s[0], rest, key, desc);
      assert s == [s[0]] + s[1..];
      assert |multiset(Insert(s[0], rest, key, desc))| == |multiset(s)|;
      Insert(s[0], rest, key, desc)
  }

  /** `Sort` never reorders elements with equal keys. */
  lemma {:induction false} SortIsStable<T>(s: seq<T>, key: T -> int, desc: bool)
    ensures Stable(s, Sort(s, key, desc), key)
  {
    if s != [] {
      SortIsStable(s[1..], key, desc);
      forall k
        ensures WithKey(Sort(s, key, desc), key, k) == WithKey(s, key, k)
      {
        InsertWithKey(s[0], Sort(s[1..], key, desc), key, desc, k);
      }
    }
  }

  /** A sequence already in order is left as it is. */
  lemma {:induction false} SortOfSorted<T>(s: seq<T>, key: T -> int, desc: bool)
    requires SortedBy(s, key, desc)
    ensures Sort(s, key, desc) == s
  {
    if s != [] {
      SortedTail(s, key, desc);
      SortOfSorted(s[1..], key, desc);
      if |s| > 1 {
        assert InOrder(key(s[0]), key(s[1]), desc);
      }
    }
  }
}

=== FILE: store.dfy ===
/** One SQLite table with an `INTEGER PRIMARY KEY AUTOINCREMENT` column, as an
    abstract store: a map from id to row plus the next id to hand out. Ids start
    at 1 and are never reused. Rows come back in ascending id order, the order of
    a plain `SELECT` without `ORDER BY` over a rowid table. */
module Store {

  import opened Wrappers
  import Seqs

  datatype Table<R> = Table(rows: map<int, R>, nextId: int)

  ghost predicate Valid<R>(t: Table<R>) {
    t.nextId >= 1 && forall k :: k in t.rows ==> 1 <= k < t.nextId
  }

  function Empty<R>(): (t: Table<R>)
    ensures Valid(t) && t.rows == map[]
  {
    Table(map[], 1)
  }

  /** `INSERT`: stores `r` under the next id; the id is reported as `lastrowid`. */
  function Insert<R>(t: Table<R>, r: R): (t': Table<R>)
    requires Valid(t)
    ensures Valid(t')
    ensures t.nextId !in t.rows && t'.rows.Keys == t.rows.Keys + {t.nextId}
    ensures t'.rows[t.nextId] == r && t'.nextId == t.nextId + 1
    ensures forall k :: k in t.rows ==> t'.rows[k] == t.rows[k]
  {
    Table(t.rows[t.nextId := r], t.nextId + 1)
  }

  /** `SELECT ... WHERE id = ?` followed by `fetchone()`. */
  function Get<R>(t: Table<R>, id: int): (r: Option<R>)
    ensures r.Some? <==> id in t.rows
    ensures r.Some? ==> r.value == t.rows[id]
  {
    if id in t.rows then Some(t.rows[id]) else None
  }

  /** `UPDATE ... WHERE id = ?`: replaces the row if there is one, else changes nothing. */
  function Overwrite<R>(t: Table<R>, id: int, r: R): (t': Table<R>)
    ensures Valid(t) ==> Valid(t')
    ensures t'.rows.Keys == t.rows.Keys && t'.nextId == t.nextId
    ensures id in t.rows ==> t'.rows[id] == r
    ensures forall k :: k in t.rows && k != id ==> t'.rows[k] == t.rows[k]
  {
    if id in t.rows then Table(t.rows[id := r], t.nextId) else t
  }

  /** `DELETE ... WHERE id = ?`: removes the row if there is one. The counter is kept. */
  function Remove<R>(t: Table<R>, id: int): (t': Table<R>)
    ensures Valid(t) ==> Valid(t')
    ensures t'.rows.Keys == t.rows.Keys - {id} && t'.nextId == t.nextId
    ensures forall k :: k in t'.rows ==> t'.rows[k] == t.rows[k]
  {
    Table(t.rows - {id}, t.nextId)
  }

  /** The ids present below `n`, ascending. */
  function IdsBelow<R>(rows: map<int, R>, n: int): (ids: seq<int>)
    ensures forall i, j :: 0 <= i < j < |ids| ==> ids[i] < ids[j]
    ensures forall i :: 0 <= i < |ids| ==> ids[i] in rows && 1 <= ids[i] < n
    ensures forall k :: k in rows && 1 <= k < n ==> k in ids
    decreases n
  {
    if n <= 1 then []
    else IdsBelow(rows, n - 1) + (if n - 1 in rows then [n - 1] else [])
  }

  /** The ids of all rows, ascending. */
  function Ids<R>(t: Table<R>): (ids: seq<int>)
    requires Valid(t)
    ensures forall i, j :: 0 <= i < j < |ids| ==> ids[i] < ids[j]
    ensures forall k :: k in t.rows <==> k in ids
  {
    IdsBelow(t.rows, t.nextId)
  }

  /** `SELECT *`: every row, in ascending id order. */
  function Scan<R>(t: Table<R>): (s: seq<R>)
    requires Valid(t)
    ensures |s| == |Ids(t)|
    ensures forall i :: 0 <= i < |s| ==> s[i] == t.rows[Ids(t)[i]]
  {
    var ids := Ids(t);
    seq(|ids|, i requires 0 <= i < |ids| => t.rows[ids[i]])
  }

  /** `SELECT * WHERE ...`: the rows satisfying `p`, in ascending id order. */
  function Select<R>(t: Table<R>, p: R -> bool): seq<R>
    requires Valid(t)
  {
    Seqs.Filter(Scan(t), p)
  }

  /** A row is selected exactly when it is stored and satisfies the condition. */
  lemma SelectMember<R>(t: Table<R>, p: R -> bool, x: R)
    requires Valid(t)
    ensures x in Select(t, p) <==> x in t.rows.Values && p(x)
  {
    Seqs.FilterMember(Scan(t), p, x);
    var s := Scan(t);
    if x in t.rows.Values {
      var k :| k in t.rows && t.rows[k] == x;
      var i :| 0 <= i < |Ids(t)| && Ids(t)[i] == k;
      assert s[i] == x;
    }
    if x in s {
      var i :| 0 <= i < |s| && s[i] == x;
      assert Ids(t)[i] in t.rows;
    }
  }

  /** When every row carries its own id, the selected rows come in ascending id order. */
  lemma SelectInIdOrder<R>(t: Table<R>, p: R -> bool, id: R -> int)
    requires Valid(t)
    requires forall k :: k in t.rows ==> id(t.rows[k]) == k
    ensures forall i, j :: 0 <= i < j < |Select(t, p)| ==> id(Select(t, p)[i]) < id(Select(t, p)[j])
  {
    var s := Scan(t);
    forall i, j | 0 <= i < j < |s|
      ensures id(s[i]) < id(s[j])
    {
      assert id(s[i]) == Ids(t)[i] && id(s[j]) == Ids(t)[j];
    }
    Seqs.FilterKeepsIncreasing(s, p, id);
  }
}

=== FILE: task_factory.dfy ===
/** The two task presets and the selector that picks one by its type tag. */
module TaskFactory {

  import opened Wrappers
  import opened Clock
  import opened Models

  datatype TaskCreator = SimpleTaskCreator | UrgentTaskCreator

  /** The `ValueError` message for an unknown tag. */
  function UnknownTypeMessage(tag: string): string {
    "Неизвестный тип задачи: " + tag
  }

  /** `TaskFactory.get_task_creator`: "simple" and "urgent" are the only tags. */
  function GetTaskCreator(tag: string): (r: Result<TaskCreator, string>)
    ensures r == Ok(SimpleTaskCreator) <==> tag == "simple"
    ensures r == Ok(UrgentTaskCreator) <==> tag == "urgent"
    ensures r.Err? <==> tag != "simple" && tag != "urgent"
    ensures r.Err? ==> r.error == UnknownTypeMessage(tag)
  {
    if tag == "simple" then Ok(SimpleTaskCreator)
    else if tag == "urgent" then Ok(UrgentTaskCreator)
    else Err(UnknownTypeMessage(tag))
  }

  /** `create_task` of either creator; `now` is the clock reading of `datetime.now()`. */
  function CreateTask(c: TaskCreator, userId: int, title: string, description: Option<string>, now: DateTime): (t: Task)
    ensures t.id == None && t.userId == userId && t.title == title && t.createdAt == now
    ensures t.status == "new"
    ensures t.description.Some?
    ensures t.description == Some("") <==> description == None || description == Some("")
    ensures description.Some? && description.value != "" ==> t.description == description
    ensures c == SimpleTaskCreator ==> t.priority == 1 && t.color == None
    ensures c == UrgentTaskCreator ==> t.priority == 3 && t.color == Some("#ff0000")
  {
    var text := if description.Some? && description.value != "" then description.value else "";
    match c
    case SimpleTaskCreator => Task(None, userId, title, Some(text), "new", 1, None, now)
    case UrgentTaskCreator => Task(None, userId, title, Some(text), "new", 3, Some("#ff0000"), now)
  }
}

=== FILE: task_repository.dfy ===
/** `TaskRepository`: create, read, update and delete over the `tasks` table.
    `healthy` is false when the connection cannot be opened or the driver raises;
    every such call returns `None`, `[]` or `False` and writes nothing. */
module TaskRepository {

  import opened Wrappers
  import opened Clock
  import opened Models
  import Store

  /** The row as `SELECT *` reconstructs it: the timestamp went through text, to the second. */
  function AsStored(task: Task, id: int): Task {
    task.(id := Some(id), createdAt := Truncate(task.createdAt))
  }

  /** `create`: inserts the task under a fresh id and returns it with that id set.
      An owner that is not a stored user violates the foreign key and nothing is written. */
  function Create(db: Db, task: Task, healthy: bool): (r: Step<Option<Task>>)
    requires Valid(db)
    ensures Valid(r.db)
    ensures r.result.Some? <==> healthy && task.userId in db.users.rows
    ensures r.result.None? ==> r.db == db
    ensures r.result.Some? ==>
              var id := db.tasks.nextId;
              && id !in db.tasks.rows
              && r.result.value == task.(id := Some(id))
              && r.db.tasks.rows == db.tasks.rows[id := AsStored(task, id)]
              && r.db.tasks.nextId == id + 1
              && r.db == db.(tasks := r.db.tasks)
  {
    if !healthy || task.userId !in db.users.rows then Step(db, None)
    else
      var id := db.tasks.nextId;
      Step(db.(tasks := Store.Insert(db.tasks, AsStored(task, id))), Some(task.(id := Some(id))))
  }

  /** `get_by_id`. */
  function GetById(db: Db, id: int, healthy: bool): (r: Option<Task>)
    requires Valid(db)
    ensures r.Some? <==> healthy && id in db.tasks.rows
    ensures r.Some? ==> r.value == db.tasks.rows[id] && r.value.id == Some(id)
  {
    if healthy then Store.Get(db.tasks, id) else None
  }

  predicate OwnedBy(userId: int, t: Task) {
    t.userId == userId
  }

  /** `get_all`: the user's tasks in storage order. */
  function GetAll(db: Db, userId: int, healthy: bool): (r: seq<Task>)
    requires Valid(db)
    ensures forall x :: x in r ==> x.userId == userId && x in db.tasks.rows.Values
    ensures !healthy ==> r == []
  {
    if healthy then
      var p := (t: Task) => OwnedBy(userId, t);
      assert forall x :: x in Store.Select(db.tasks, p) ==> p(x) && x in db.tasks.rows.Values by {
        forall x { Store.SelectMember(db.tasks, p, x); }
      }
      Store.Select(db.tasks, p)
    else []
  }

  /** `get_all` returns exactly the stored rows of that user. */
  lemma GetAllExact(db: Db, userId: int, x: Task)
    requires Valid(db)
    ensures x in GetAll(db, userId, true) <==> x in db.tasks.rows.Values && x.userId == userId
  {
    Store.SelectMember(db.tasks, t => OwnedBy(userId, t), x);
  }

  /** `get_all` lists the rows in ascending id order. */
  lemma GetAllInIdOrder(db: Db, userId: int, healthy: bool)
    requires Valid(db)
    ensures forall i, j :: 0 <= i < j < |GetAll(db, userId, healthy)|
              ==> TaskKey(GetAll(db, userId, healthy)[i]) < TaskKey(GetAll(db, userId, healthy)[j])
  {
    if healthy {
      Store.SelectInIdOrder(db.tasks, t => OwnedBy(userId, t), TaskKey);
    }
  }

  /** The fields `update` writes, taken from `task`, onto the stored row `stored`. */
  function Overwritten(stored: Task, task: Task): Task {
    stored.(title := task.title, description := task.description, status := task.status,
         priority := task.priority, color := task.color)
  }

  /** `update`: writes title, description, status, priority and color onto the row
      with the task's id. It reports success even when no row has that id. */
  function Update(db: Db, task: Task, healthy: bool): (r: Step<bool>)
    requires Valid(db)
    ensures Valid(r.db)
    ensures r.result == healthy
    ensures r.db.tasks.rows.Keys == db.tasks.rows.Keys && r.db == db.(tasks := r.db.tasks)
    ensures r.db.tasks.nextId == db.tasks.nextId
    ensures forall k :: k in db.tasks.rows ==>
              r.db.tasks.rows[k] == if healthy && task.id == Some(k) then Overwritten(db.tasks.rows[k], task)
                                    else db.tasks.rows[k]
  {
    if !healthy then Step(db, false)
    else if task.id.None? || task.id.value !in db.tasks.rows then Step(db, true)
    else
      var id := task.id.value;
      Step(db.(tasks := Store.Overwrite(db.tasks, id, Overwritten(db.tasks.rows[id], task))), true)
  }

  /** `delete`: removes the row with that id. It reports success even when there is none. */
  function Delete(db: Db, id: int, healthy: bool): (r: Step<bool>)
    requires Valid(db)
    ensures Valid(r.db)
    ensures r.result == healthy
    ensures r.db.tasks.rows.Keys == if healthy then db.tasks.rows.Keys - {id} else db.tasks.rows.Keys
    ensures forall k :: k in r.db.tasks.rows ==> r.db.tasks.rows[k] == db.tasks.rows[k]
    ensures r.db.tasks.nextId == db.tasks.nextId
    ensures r.db == db.(tasks := r.db.tasks)
  {
    if healthy then Step(db.(tasks := Store.Remove(db.tasks, id)), true) else Step(db, false)
  }

  /** Reading a created task back gives the same fields, the new id, and the timestamp to the second. */
  lemma CreateThenGet(db: Db, task: Task)
    requires Valid(db) && task.userId in db.users.rows
    ensures var r := Create(db, task, true);
            && r.result.Some?
            && GetById(r.db, r.result.value.id.value, true)
                 == Some(r.result.value.(createdAt := Truncate(task.createdAt)))
  {
  }

  /** After a delete, the task can no longer be read. */
  lemma DeleteThenGet(db: Db, id: int)
    requires Valid(db)
    ensures GetById(Delete(db, id, true).db, id, true) == None
  {
  }

  /** AUTOINCREMENT never hands out a deleted id again: a task created after a delete
      gets an id that differs from the deleted one. */
  lemma DeletedIdNotReused(db: Db, id: int, task: Task)
    requires Valid(db) && id in db.tasks.rows && task.userId in db.users.rows
    ensures var r := Create(Delete(db, id, true).db, task, true);
            r.result.Some? && r.result.value.id != Some(id)
  {
  }
}

=== FILE: task_service.dfy ===
/** `TaskService`: task creation through the factory, the filtered and sorted
    listing, the single-field updates and the statistics. */
module TaskService {

  import opened Wrappers
  import opened Clock
  import opened Models
  import opened Text
  import Seqs
  import Sorting
  import TaskFactory
  import Repo = TaskRepository

  /** `create_task`: picks the creator for `tag`, builds the task, stores it.
      An unknown tag raises `ValueError` before anything is stored. */
  function CreateTask(db: Db, userId: int, title: string, description: Option<string>, tag: string,
                      now: DateTime, healthy: bool): (r: Step<Result<Option<Task>, string>>)
    requires Valid(db)
    ensures Valid(r.db)
    ensures r.result.Err? <==> tag != "simple" && tag != "urgent"
    ensures r.result.Err? ==> r.result.error == TaskFactory.UnknownTypeMessage(tag)
    ensures r.result.Err? || r.result.value.None? ==> r.db == db
    ensures r.result.Ok? ==> (r.result.value.Some? <==> healthy && userId in db.users.rows)
    ensures r.result.Ok? && r.result.value.Some? ==>
              var t := r.result.value.value;
              && t.id == Some(db.tasks.nextId) && db.tasks.nextId !in db.tasks.rows
              && t.userId == userId && t.title == title && t.status == "new" && t.createdAt == now
              && t == TaskFactory.CreateTask(TaskFactory.GetTaskCreator(tag).value, userId, title, description, now)
                        .(id := Some(db.tasks.nextId))
              && t.priority == (if tag == "urgent" then 3 else 1)
              && t.color == (if tag == "urgent" then Some("#ff0000") else None)
              && t.description == (if description == None then Some("") else description)
              && r.db.tasks.rows == db.tasks.rows[db.tasks.nextId := Repo.AsStored(t, db.tasks.nextId)]
              && r.db.tasks.nextId == db.tasks.nextId + 1
              && r.db == db.(tasks := r.db.tasks)
  {
    match TaskFactory.GetTaskCreator(tag)
    case Err(e) => Step(db, Err(e))
    case Ok(c) =>
      var s := Repo.Create(db, TaskFactory.CreateTask(c, userId, title, description, now), healthy);
      Step(s.db, Ok(s.result))
  }

  /** The status filter: a missing or empty status keeps every task. */
  predicate StatusMatches(t: Task, status: Option<string>) {
    status.None? || status.value == "" || t.status == status.value
  }

  /** The title search: case-insensitive substring; a missing or empty query keeps every task. */
  predicate TitleMatches(t: Task, query: Option<string>) {
    query.None? || query.value == "" || Contains(Lower(t.title), Lower(query.value))
  }

  /** Tasks listed in ascending id order, as storage returns them. */
  ghost predicate InIdOrder(tasks: seq<Task>) {
    forall i, j :: 0 <= i < j < |tasks| ==> TaskKey(tasks[i]) < TaskKey(tasks[j])
  }

  function FilterByStatus(tasks: seq<Task>, status: Option<string>): (r: seq<Task>)
    ensures forall x :: x in r <==> x in tasks && StatusMatches(x, status)
    ensures InIdOrder(tasks) ==> InIdOrder(r)
  {
    if status.Some? && status.value != "" then
      var p := (t: Task) => t.status == status.value;
      Seqs.FilterKeepsIncreasing(tasks, p, TaskKey);
      assert forall x :: x in Seqs.Filter(tasks, p) <==> x in tasks && p(x) by {
        forall x { Seqs.FilterMember(tasks, p, x); }
      }
      Seqs.Filter(tasks, p)
    else tasks
  }

  function FilterByTitle(tasks: seq<Task>, query: Option<string>): (r: seq<Task>)
    ensures forall x :: x in r <==> x in tasks && TitleMatches(x, query)
    ensures InIdOrder(tasks) ==> InIdOrder(r)
  {
    if query.Some? && query.value != "" then
      var q := Lower(query.value);
      var p := (t: Task) => Contains(Lower(t.title), q);
      Seqs.FilterKeepsIncreasing(tasks, p, TaskKey);
      assert forall x :: x in Seqs.Filter(tasks, p) <==> x in tasks && p(x) by {
        forall x { Seqs.FilterMember(tasks, p, x); }
      }
      Seqs.Filter(tasks, p)
    else tasks
  }

  function PriorityKey(t: Task): int { t.priority }

  function CreatedKey(t: Task): int { Ordinal(t.createdAt) }

  /** The sort step: by priority or by creation time, descending exactly when the
      order is "desc"; any other field leaves the list as it is. */
  function SortTasks(tasks: seq<Task>, sortBy: string, sortOrder: string): (r: seq<Task>)
    ensures multiset(r) == multiset(tasks)
    ensures sortBy == "priority" ==> Sorting.SortedBy(r, PriorityKey, sortOrder == "desc")
    ensures sortBy == "created_at" ==> Sorting.SortedBy(r, CreatedKey, sortOrder == "desc")
    ensures sortBy != "priority" && sortBy != "created_at" ==> r == tasks
  {
    var desc := sortOrder == "desc";
    if sortBy == "priority" then Sorting.Sort(tasks, PriorityKey, desc)
    else if sortBy == "created_at" then Sorting.Sort(tasks, CreatedKey, desc)
    else tasks
  }

  /** The search is case-blind: a query and its lower-cased form match the same titles. */
  lemma SearchIgnoresCase(t: Task, q: string)
    ensures TitleMatches(t, Some(q)) <==> TitleMatches(t, Some(Lower(q)))
  {
    LowerIdempotent(q);
  }

  /** The `if search_query:` guard changes nothing: the empty query is a substring of
      every title, so the search is the substring test alone. */
  lemma SearchIsSubstringTest(t: Task, q: string)
    ensures TitleMatches(t, Some(q)) <==> Contains(Lower(t.title), Lower(q))
  {
    if q == "" {
      assert Lower(q) == "";
      EmptyQueryOccurs(Lower(t.title));
    }
  }

  /** Sorting an already sorted listing again, as every refresh does, changes nothing. */
  lemma ResortingChangesNothing(tasks: seq<Task>, sortBy: string, sortOrder: string)
    ensures SortTasks(SortTasks(tasks, sortBy, sortOrder), sortBy, sortOrder) == SortTasks(tasks, sortBy, sortOrder)
  {
    var desc := sortOrder == "desc";
    var once := SortTasks(tasks, sortBy, sortOrder);
    if sortBy == "priority" {
      Sorting.SortOfSorted(once, PriorityKey, desc);
    } else if sortBy == "created_at" {
      Sorting.SortOfSorted(once, CreatedKey, desc);
    }
  }

  /** The user's tasks after both filters, still in storage order. */
  function Listed(db: Db, userId: int, status: Option<string>, query: Option<string>, healthy: bool): (r: seq<Task>)
    requires Valid(db)
    ensures forall x :: x in r ==>
              && x in db.tasks.rows.Values && x.userId == userId
              && StatusMatches(x, status) && TitleMatches(x, query)
  {
    var all := Repo.GetAll(db, userId, healthy);
    FilterByTitle(FilterByStatus(all, status), query)
  }

  /** `get_user_tasks`: load, filter by status, filter by title, sort. */
  function GetUserTasks(db: Db, userId: int, status: Option<string>, query: Option<string>,
                        sortBy: string, sortOrder: string, healthy: bool): (r: seq<Task>)
    requires Valid(db)
    ensures forall x :: x in r ==>
              && x in db.tasks.rows.Values && x.userId == userId
              && StatusMatches(x, status) && TitleMatches(x, query)
    ensures !healthy ==> r == []
  {
    var listed := Listed(db, userId, status, query, healthy);
    var r := SortTasks(listed, sortBy, sortOrder);
    assert forall x :: x in r ==> x in listed by {
      forall x | x in r ensures x in listed {
        assert x in multiset(r);
      }
    }
    r
  }

  /** Every stored task of the user that passes both filters is listed. */
  lemma GetUserTasksComplete(db: Db, userId: int, status: Option<string>, query: Option<string>,
                             sortBy: string, sortOrder: string, x: Task)
    requires Valid(db)
    requires x in db.tasks.rows.Values && x.userId == userId
    requires StatusMatches(x, status) && TitleMatches(x, query)
    ensures x in GetUserTasks(db, userId, status, query, sortBy, sortOrder, true)
  {
    Repo.GetAllExact(db, userId, x);
    var listed := Listed(db, userId, status, query, true);
    assert x in multiset(listed);
    assert x in multiset(SortTasks(listed, sortBy, sortOrder));
  }

  /** The listing is the filtered list (in storage order) sorted as requested:
      a permutation of it, ordered by the key, with ties in storage order. */
  lemma GetUserTasksOrder(db: Db, userId: int, status: Option<string>, query: Option<string>,
                          sortBy: string, sortOrder: string, healthy: bool)
    requires Valid(db)
    ensures var listed := Listed(db, userId, status, query, healthy);
            var r := GetUserTasks(db, userId, status, query, sortBy, sortOrder, healthy);
            && InIdOrder(listed)
            && multiset(r) == multiset(listed)
            && (sortBy == "priority" ==>
                  Sorting.SortedBy(r, PriorityKey, sortOrder == "desc") && Sorting.Stable(listed, r, PriorityKey))
            && (sortBy == "created_at" ==>
                  Sorting.SortedBy(r, CreatedKey, sortOrder == "desc") && Sorting.Stable(listed, r, CreatedKey))
            && (sortBy != "priority" && sortBy != "created_at" ==> r == listed)
  {
    var listed := Listed(db, userId, status, query, healthy);
    Repo.GetAllInIdOrder(db, userId, healthy);
    Sorting.SortIsStable(listed, PriorityKey, sortOrder == "desc");
    Sorting.SortIsStable(listed, CreatedKey, sortOrder == "desc");
  }

  /** Whether the stored tasks after `db'` are those of `db` with the row `id`
      replaced by `edit` of it (when the driver works and the row exists), and
      no other table touched. */
  ghost predicate EditedOnly(db: Db, db': Db, id: int, edited: Task, healthy: bool) {
    && db' == db.(tasks := db'.tasks)
    && db'.tasks.rows.Keys == db.tasks.rows.Keys && db'.tasks.nextId == db.tasks.nextId
    && (forall k :: k in db.tasks.rows && k != id ==> db'.tasks.rows[k] == db.tasks.rows[k])
    && (id in db.tasks.rows ==> db'.tasks.rows[id] == if healthy then edited else db.tasks.rows[id])
  }

  /** `update_task_status`: read the task, set the status, write it back; no-op for an absent id. */
  function UpdateTaskStatus(db: Db, id: int, newStatus: string, healthy: bool): (db': Db)
    requires Valid(db)
    ensures Valid(db')
    ensures id in db.tasks.rows ==> EditedOnly(db, db', id, db.tasks.rows[id].(status := newStatus), healthy)
    ensures id !in db.tasks.rows ==> db' == db
  {
    match Repo.GetById(db, id, healthy)
    case None => db
    case Some(t) => Repo.Update(db, t.(status := newStatus), healthy).db
  }

  /** `update_task_priority`. */
  function UpdateTaskPriority(db: Db, id: int, newPriority: int, healthy: bool): (db': Db)
    requires Valid(db)
    ensures Valid(db')
    ensures id in db.tasks.rows ==> EditedOnly(db, db', id, db.tasks.rows[id].(priority := newPriority), healthy)
    ensures id !in db.tasks.rows ==> db' == db
  {
    match Repo.GetById(db, id, healthy)
    case None => db
    case Some(t) => Repo.Update(db, t.(priority := newPriority), healthy).db
  }

  /** `update_task_color`. */
  function UpdateTaskColor(db: Db, id: int, newColor: Option<string>, healthy: bool): (db': Db)
    requires Valid(db)
    ensures Valid(db')
    ensures id in db.tasks.rows ==> EditedOnly(db, db', id, db.tasks.rows[id].(color := newColor), healthy)
    ensures id !in db.tasks.rows ==> db' == db
  {
    match Repo.GetById(db, id, healthy)
    case None => db
    case Some(t) => Repo.Update(db, t.(color := newColor), healthy).db
  }

  /** `update_task_description`. */
  function UpdateTaskDescription(db: Db, id: int, newDescription: Option<string>, healthy: bool): (db': Db)
    requires Valid(db)
    ensures Valid(db')
    ensures id in db.tasks.rows ==>
              EditedOnly(db, db', id, db.tasks.rows[id].(description := newDescription), healthy)
    ensures id !in db.tasks.rows ==> db' == db
  {
    match Repo.GetById(db, id, healthy)
    case None => db
    case Some(t) => Repo.Update(db, t.(description := newDescription), healthy).db
  }

  /** `delete_task`: the repository's delete, result discarded. */
  function DeleteTask(db: Db, id: int, healthy: bool): (db': Db)
    requires Valid(db)
    ensures Valid(db')
    ensures healthy ==> id !in db'.tasks.rows
    ensures db'.tasks.rows.Keys == if healthy then db.tasks.rows.Keys - {id} else db.tasks.rows.Keys
    ensures forall k :: k in db'.tasks.rows ==> db'.tasks.rows[k] == db.tasks.rows[k]
    ensures db'.tasks.nextId == db.tasks.nextId
    ensures db' == db.(tasks := db'.tasks)
  {
    Repo.Delete(db, id, healthy).db
  }

  datatype Statistics = Statistics(total: int, completed: int, inProgress: int, completionRate: real)

  predicate IsCompleted(t: Task) { t.status == "completed" }

  predicate IsInProgress(t: Task) { t.status == "in_progress" }

  /** `get_task_statistics`: counts over the default listing (all of the user's tasks)
      and the percentage of completed ones, 0 for a user with no tasks. */
  function GetTaskStatistics(db: Db, userId: int, healthy: bool): (s: Statistics)
    requires Valid(db)
    ensures var all := Repo.GetAll(db, userId, healthy);
            && s.total == |all|
            && s.completed == |Seqs.Filter(all, IsCompleted)|
            && s.inProgress == |Seqs.Filter(all, IsInProgress)|
    ensures s.completed + s.inProgress <= s.total
    ensures s.total == 0 ==> s == Statistics(0, 0, 0, 0.0)
    ensures s.total > 0 ==> IsPercentage(s)
  {
    var tasks := DefaultListing(db, userId, healthy);
    var all := Repo.GetAll(db, userId, healthy);
    Seqs.CountOfPermutation(tasks, all, IsCompleted);
    Seqs.CountOfPermutation(tasks, all, IsInProgress);
    Seqs.DisjointFiltersFit(all, IsCompleted, IsInProgress);
    var total := |tasks|;
    if total == 0 then Statistics(0, 0, 0, 0.0)
    else
      var completed := |Seqs.Filter(tasks, IsCompleted)|;
      var inProgress := |Seqs.Filter(tasks, IsInProgress)|;
      Summary(total, completed, inProgress)
  }

  /** The listing the statistics are computed from, with no filter and the default
      sort. It holds every task of the user, each once. */
  function DefaultListing(db: Db, userId: int, healthy: bool): (r: seq<Task>)
    requires Valid(db)
    ensures multiset(r) == multiset(Repo.GetAll(db, userId, healthy))
    ensures |r| == |Repo.GetAll(db, userId, healthy)|
  {
    var r := GetUserTasks(db, userId, None, None, "priority", "desc", healthy);
    GetUserTasksOrder(db, userId, None, None, "priority", "desc", healthy);
    var all := Repo.GetAll(db, userId, healthy);
    assert Listed(db, userId, None, None, healthy) == all;
    assert |multiset(r)| == |multiset(all)|;
    r
  }

  /** The completion rate is the completed share of all tasks, in percent. */
  predicate IsPercentage(s: Statistics) {
    s.completionRate * s.total as real == 100.0 * s.completed as real
  }

  /** The statistics of a non-empty listing. */
  function Summary(total: int, completed: int, inProgress: int): (s: Statistics)
    requires total > 0
    ensures s.total == total && s.completed == completed && s.inProgress == inProgress
    ensures IsPercentage(s)
  {
    Statistics(total, completed, inProgress, CompletionRate(completed, total))
  }

  /** `(completed / total) * 100` in exact arithmetic: the percentage of completed tasks. */
  function CompletionRate(completed: int, total: int): (rate: real)
    requires total > 0
    ensures rate * total as real == 100.0 * completed as real
  {
    var share := completed as real / total as real;
    assert share * total as real == completed as real;
    assert (share * 100.0) * total as real == (share * total as real) * 100.0;
    share * 100.0
  }
}

=== FILE: tasks_view.dfy ===
/** The rules of the task list view (`TasksFrame`): its default listing, adding a task,
    toggling completion and nudging priority. Widgets are not modelled. */
module TasksView {

  import opened Wrappers
  import opened Clock
  import opened Models
  import Sorting
  import TaskService
  import AuthService

  /** The status filter and the two sort menus. */
  datatype ViewState = ViewState(status: Option<string>, sortBy: string, sortOrder: string)

  /** A fresh view: every status, by priority, highest first. */
  const InitialView := ViewState(None, "priority", "desc")

  /** `refresh_tasks`: the tasks shown for the search text typed so far; nothing without a user. */
  function Shown(db: Db, session: AuthService.Session, view: ViewState, search: string, healthy: bool): (r: seq<Task>)
    requires Valid(db)
    ensures !AuthService.IsAuthenticated(session) ==> r == []
    ensures AuthService.IsAuthenticated(session) ==>
              forall x :: x in r ==>
                && x in db.tasks.rows.Values && x.userId == UserKey(session.currentUser.value)
                && TaskService.StatusMatches(x, view.status) && TaskService.TitleMatches(x, Some(search))
  {
    match session.currentUser
    case None => []
    case Some(user) =>
      TaskService.GetUserTasks(db, UserKey(user), view.status, Some(search), view.sortBy, view.sortOrder, healthy)
  }

  /** With an empty search box, a fresh view shows every task of the logged-in user,
      highest priority first. */
  lemma InitialViewShowsAll(db: Db, session: AuthService.Session, x: Task)
    requires Valid(db) && AuthService.IsAuthenticated(session)
    ensures var r := Shown(db, session, InitialView, "", true);
            && Sorting.SortedBy(r, TaskService.PriorityKey, true)
            && (x in r <==> x in db.tasks.rows.Values && x.userId == UserKey(session.currentUser.value))
  {
    var uid := UserKey(session.currentUser.value);
    var r := TaskService.GetUserTasks(db, uid, None, Some(""), "priority", "desc", true);
    assert Shown(db, session, InitialView, "", true) == r;
    TaskService.GetUserTasksOrder(db, uid, None, Some(""), "priority", "desc", true);
    if x in db.tasks.rows.Values && x.userId == uid {
      assert TaskService.StatusMatches(x, None) && TaskService.TitleMatches(x, Some(""));
      TaskService.GetUserTasksComplete(db, uid, None, Some(""), "priority", "desc", x);
    }
  }

  /** `toggle_task_status`: completed goes back to "new", anything else becomes "completed". */
  function ToggledStatus(status: string): (r: string)
    ensures (r == "completed") <==> (status != "completed")
    ensures r == "completed" || r == "new"
  {
    if status != "completed" then "completed" else "new"
  }

  /** Toggling twice gives "completed" back only for a completed task; every other
      status ends as "new". */
  lemma ToggleTwice(status: string)
    ensures ToggledStatus(ToggledStatus(status)) == (if status == "completed" then "completed" else "new")
  {
  }

  /** Toggle the task shown on screen: its stored row gets the toggled status of the
      displayed one. A task without id, or no longer stored, changes nothing. */
  function ToggleTaskStatus(db: Db, task: Task, healthy: bool): (db': Db)
    requires Valid(db)
    ensures Valid(db')
    ensures task.id.Some? && task.id.value in db.tasks.rows ==>
              TaskService.EditedOnly(db, db', task.id.value,
                                     db.tasks.rows[task.id.value].(status := ToggledStatus(task.status)), healthy)
    ensures task.id.None? || task.id.value !in db.tasks.rows ==> db' == db
  {
    match task.id
    case None => db
    case Some(id) => TaskService.UpdateTaskStatus(db, id, ToggledStatus(task.status), healthy)
  }

  /** The priorities the arrow buttons can reach. */
  predicate InPriorityRange(p: int) { 0 <= p <= 3 }

  /** `change_priority`: move the displayed priority by `delta`, only when the result
      stays within 0..3. */
  function ChangePriority(db: Db, task: Task, delta: int, healthy: bool): (db': Db)
    requires Valid(db)
    ensures Valid(db')
    ensures !InPriorityRange(task.priority + delta) ==> db' == db
    ensures task.id.None? || task.id.value !in db.tasks.rows ==> db' == db
    ensures InPriorityRange(task.priority + delta) && task.id.Some? && task.id.value in db.tasks.rows ==>
              TaskService.EditedOnly(db, db', task.id.value,
                                     db.tasks.rows[task.id.value].(priority := task.priority + delta), healthy)
    ensures db'.tasks.rows.Keys == db.tasks.rows.Keys
    ensures forall k :: k in db.tasks.rows && InPriorityRange(db.tasks.rows[k].priority) ==>
              InPriorityRange(db'.tasks.rows[k].priority)
  {
    var p := task.priority + delta;
    if !InPriorityRange(p) then db
    else match task.id
      case None => db
      case Some(id) => TaskService.UpdateTaskPriority(db, id, p, healthy)
  }

  /** Whether `add_task` goes on to create a task: a title, a logged-in user, and a
      creation the service accepts (known type, working connection, stored user). */
  predicate AddSucceeds(db: Db, session: AuthService.Session, title: string, tag: string, healthy: bool) {
    && title != "" && AuthService.IsAuthenticated(session) && healthy
    && UserKey(session.currentUser.value) in db.users.rows && tag in {"simple", "urgent"}
  }

  /** `add_task`: nothing happens with an empty title or no user; otherwise the service
      creates a task of the chosen type from the two entries. */
  function AddTask(db: Db, session: AuthService.Session, title: string, description: string, tag: string,
                   now: DateTime, healthy: bool): (db': Db)
    requires Valid(db)
    ensures Valid(db')
    ensures !AddSucceeds(db, session, title, tag, healthy) ==> db' == db
    ensures db' == db.(tasks := db'.tasks)
    ensures forall k :: k in db.tasks.rows ==> k in db'.tasks.rows && db'.tasks.rows[k] == db.tasks.rows[k]
    ensures db'.tasks.rows.Keys <= db.tasks.rows.Keys + {db.tasks.nextId}
    ensures AddSucceeds(db, session, title, tag, healthy) ==>
              var id := db.tasks.nextId;
              && id !in db.tasks.rows && id in db'.tasks.rows
              && db'.tasks.rows.Keys == db.tasks.rows.Keys + {id}
              && db'.tasks.rows[id].id == Some(id)
              && db'.tasks.rows[id].title == title
              && db'.tasks.rows[id].description == Some(description)
              && db'.tasks.rows[id].userId == UserKey(session.currentUser.value)
              && db'.tasks.rows[id].status == "new"
              && db'.tasks.rows[id].priority == (if tag == "urgent" then 3 else 1)
              && db'.tasks.rows[id].createdAt == Truncate(now)
              && db'.tasks.rows[id].color == (if tag == "urgent" then Some("#ff0000") else None)
              && db'.tasks.nextId == id + 1
  {
    if title == "" then db
    else match session.currentUser
      case None => db
      case Some(user) => TaskService.CreateTask(db, UserKey(user), title, Some(description), tag, now, healthy).db
  }
}

=== FILE: text.dfy ===
/** The three Python string operations the rules rely on: `str.strip()`,
    `str.lower()` and the substring test `q in s`. Strings are sequences of
    Unicode code points, as in Python. */
module Text {

  /** Python's `str.isspace()` for one code point. */
  predicate IsSpace(c: char) {
    || c == ' ' || c == '\t' || c == '\n' || c == '\r' || c == '\U{B}' || c == '\U{C}'
    || ('\U{1C}' <= c <= '\U{1F}') || c == '\U{85}' || c == '\U{A0}' || c == '\U{1680}'
    || ('\U{2000}' <= c <= '\U{200A}') || c == '\U{2028}' || c == '\U{2029}' || c == '\U{202F}'
    || c == '\U{205F}' || c == '\U{3000}'
  }

  /** `s` without its leading whitespace. */
  function TrimStart(s: string): (r: string)
    ensures |r| <= |s| && r == s[|s| - |r|..]
    ensures forall k :: 0 <= k < |s| - |r| ==> IsSpace(s[k])
    ensures r == [] || !IsSpace(r[0])
  {
    if s != [] && IsSpace(s[0]) then TrimStart(s[1..]) else s
  }

  /** `s` without its trailing whitespace. */
  function TrimEnd(s: string): (r: string)
    ensures |r| <= |s| && r == s[..|r|]
    ensures forall k :: |r| <= k < |s| ==> IsSpace(s[k])
    ensures r == [] || !IsSpace(r[|r| - 1])
  {
    if s != [] && IsSpace(s[|s| - 1]) then TrimEnd(s[..|s| - 1]) else s
  }

  /** Python's `str.strip()`: the longest infix of `s` that neither starts nor
      ends with whitespace, every dropped character being whitespace. */
  function Strip(s: string): (r: string)
    ensures r == [] || (!IsSpace(r[0]) && !IsSpace(r[|r| - 1]))
    ensures exists i :: StrippedAt(s, r, i)
  {
    var a := TrimStart(s);
    var r := TrimEnd(a);
    var i := |s| - |a|;
    assert r == s[i..i + |r|];
    assert StrippedAt(s, r, i);
    r
  }

  /** `r` is the infix of `s` starting at `i` and everything around it is whitespace. */
  predicate StrippedAt(s: string, r: string, i: int) {
    && 0 <= i <= i + |r| <= |s| && r == s[i..i + |r|]
    && (forall k :: 0 <= k < i ==> IsSpace(s[k]))
    && (forall k :: i + |r| <= k < |s| ==> IsSpace(s[k]))
  }

  /** Stripping twice changes nothing more. */
  lemma StripIdempotent(s: string)
    ensures Strip(Strip(s)) == Strip(s)
  {
    var r := Strip(s);
    if r != [] {
      assert TrimStart(r) == r;
      assert TrimEnd(r) == r;
    }
  }

  /** Python's `str.lower()` for one code point, on the Latin and Cyrillic
      alphabets the application's texts are written in. */
  function LowerChar(c: char): char {
    if 'A' <= c <= 'Z' then (c as int + 32) as char
    else if '\U{410}' <= c <= '\U{42F}' then (c as int + 32) as char
    else if '\U{400}' <= c <= '\U{40F}' then (c as int + 80) as char
    else c
  }

  /** Python's `str.lower()`, code point by code point. */
  function Lower(s: string): (r: string)
    ensures |r| == |s|
    ensures forall i :: 0 <= i < |s| ==> r[i] == LowerChar(s[i])
  {
    seq(|s|, i requires 0 <= i < |s| => LowerChar(s[i]))
  }

  /** Lower-casing is idempotent. */
  lemma LowerIdempotent(s: string)
    ensures Lower(Lower(s)) == Lower(s)
  {
  }

  /** `q` occurs in `s` at some offset: the meaning of Python's `q in s`. */
  ghost predicate OccursIn(q: string, s: string) {
    exists i :: OccursAt(q, s, i)
  }

  /** `q` occurs in `s` at offset `i`. */
  predicate OccursAt(q: string, s: string, i: int) {
    0 <= i && i + |q| <= |s| && s[i..i + |q|] == q
  }

  /** Python's `q in s`, computed by trying every offset from the left. */
  function Contains(s: string, q: string): (b: bool)
    decreases |s|
  {
    if |q| > |s| then false
    else if s[..|q|] == q then true
    else Contains(s[1..], q)
  }

  /** `Contains` decides exactly the substring relation. */
  lemma {:induction false} ContainsIsOccurrence(s: string, q: string)
    ensures Contains(s, q) <==> OccursIn(q, s)
    decreases |s|
  {
    if |q| > |s| {
    } else if s[..|q|] == q {
      assert OccursAt(q, s, 0);
    } else {
      ContainsIsOccurrence(s[1..], q);
      if OccursIn(q, s) {
        var i :| OccursAt(q, s, i);
        assert i != 0;
        OccursInTail(q, s, i);
      }
      if Contains(s[1..], q) {
        var i :| OccursAt(q, s[1..], i);
        OccursFromTail(q, s, i);
      }
    }
  }

  /** An occurrence past the first offset is an occurrence in the tail. */
  lemma OccursInTail(q: string, s: string, i: int)
    requires 0 < i && OccursAt(q, s, i)
    ensures OccursAt(q, s[1..], i - 1)
  {
    assert s[1..][i - 1..i - 1 + |q|] == s[i..i + |q|];
  }

  /** An occurrence in the tail is an occurrence one offset further on. */
  lemma OccursFromTail(q: string, s: string, i: int)
    requires s != [] && OccursAt(q, s[1..], i)
    ensures OccursAt(q, s, i + 1)
  {
    assert s[i + 1..i + 1 + |q|] == s[1..][i..i + |q|];
  }

  /** The empty query occurs in every string, which is why an empty search matches everything. */
  lemma EmptyQueryOccurs(s: string)
    ensures Contains(s, "")
  {
    assert s[..0] == "";
  }
}

=== FILE: wrappers.dfy ===
/** Optional values, standing in for Python's `None`, and results that may be exceptions. */
module Wrappers {

  datatype Option<+T> = None | Some(value: T)

  /** A value, or the exception the source raises instead of returning one. */
  datatype Result<+T, +E> = Ok(value: T) | Err(error: E)
}
